=== FILE: README.md ===
# insforge-instagram client: a Dafny model of its logic

The system is a photo/video social feed written as a React client over a
generic backend-as-a-service. The backend supplies record endpoints, object
storage and OAuth/session auth. This project models the logic the client itself
owns, as pure functions over immutable records:

- the HTTP client's request and response interceptors (`Api`);
- the credential store, that is the two `localStorage` keys `access_token` and `user_id` (`Storage`);
- the auth service: OAuth callback, register, login, logout and profile lookup (`Auth`);
- the posts service (`Posts`):
  - the paged feed with its client-side join of media rows and author profiles;
  - the post-creation plan;
  - like, unlike and comment writes;
- the page and component state machines:
  - the home feed and its optimistic like toggle (`Home`);
  - the post card's media carousel, labels and comment counter (`PostCard`);
  - the comment panel (`Comments`);
  - the post composer with its ten-file cap (`CreatePostPage`);
  - the profile page's grid, follow toggle and tabs (`Profile`).

Every network response is a function parameter. It is `None` when the request's
promise rejects. In `Auth` a response is an `Api.Reply` instead, which keeps the
rejection's HTTP status, and each store result has the response interceptor
applied: a 401 signs the user out there. The requests the client issues are returned as records. The
clock (`Date.now()`) is a parameter. `localStorage` is an explicit
`map<string, string>` passed in and returned. Each asynchronous operation is
one atomic step. JavaScript truthiness is modelled explicitly: an absent
string and `""` are both falsy (`Types.Truthy`).

Files: `wrappers.dfy` (Option/Result), `text.dfy` (string operations),
`types.dfy` (records of src/types/index.ts), `storage.dfy`, `api.dfy`,
`auth.dfy`, `posts.dfy`, `home.dfy`, `postcard.dfy`, `comments.dfy`,
`createpost.dfy`, `profile.dfy`.

Two behaviours of the code are worth stating up front:

- A post's media keep the media response's order; nothing sorts them by
  `order_index`. So `Posts.AttachMedia` promises response order and no sortedness.
- A rejected author-profile request rejects the whole `getPosts` call. Only a
  profile row that is missing from a successful response leaves `user_profile`
  undefined. `Posts.GetPosts` models it that way.

## Model

| member | source | states |
|---|---|---|
| `Text.NatToString` | src/services/posts.ts:85 | a number in a template literal renders as a non-empty digit string with no leading zero |
| `Text.ParseNatToString` | src/services/posts.ts:85 | reading the rendered digits back gives the number (round trip) |
| `Text.NatToStringInjective` | src/services/posts.ts:85 | different numbers render as different strings |
| `Text.DigitsBeforeSeparator` | src/services/posts.ts:85 | a rendered number followed by a non-digit separator can be read back unambiguously |
| `Text.BeforeFirst` | src/services/auth.ts:35 | `split('@')[0]` is a prefix with no `@` that ends at the first `@` or at the end of the string |
| `Text.AfterLast` | src/services/posts.ts:84 | `split('.').pop()` is a suffix with no `.` that starts just after the last `.` |
| `Text.Trim` | src/components/Comments.tsx:49 | `trim()` leaves a stretch of the input with only whitespace cut from either end, and neither end of the result is whitespace |
| `Text.TrimEmptyIffBlank` | src/components/Comments.tsx:49 | `trim()` is empty exactly when every character is ECMAScript whitespace |
| `Storage.SignedInUser` | src/services/posts.ts:65-66 | the `if (!userId)` guard passes exactly when `user_id` is stored and non-empty |
| `Storage.SaveCredentials` | src/services/auth.ts:80-81 | both keys hold the new token and user id; every other key is untouched |
| `Storage.ClearCredentials` | src/services/auth.ts:99-100 | both keys are gone, nobody is signed in, and every other key is untouched |
| `Storage.ClearUndoesSave` | src/services/auth.ts:73-102 | clearing after saving leaves the store that clearing alone leaves |
| `Api.BaseUrl` | src/services/api.ts:3-5 | every request path is rooted at `/api`, under the configured base URL when one is set |
| `Api.InterceptRequest` | src/services/api.ts:11-23 | a stored token becomes `Bearer <token>` and no token leaves Authorization alone; JSON is the default Content-Type except for form data; an explicit Content-Type and all other headers are kept |
| `Api.InterceptResponse` | src/services/api.ts:25-35 | a 401 wipes both credentials and redirects to `/login`; anything else changes nothing; the outcome always reaches the caller unchanged |
| `Api.UnauthorizedSignsOut` | src/services/api.ts:11-35 | after a 401 nobody is signed in, and the next request carries no bearer token |
| `Auth.RedirectUrl` | src/services/auth.ts:10-15 | the callback address is the app URL, or else the page origin, followed by `/auth/callback` |
| `Auth.ProfilesOf` | src/services/auth.ts:92-94 | the `user_id=eq.` query returns exactly that user's profiles from the table |
| `Auth.GetUserProfile` | src/services/auth.ts:91-96 | null exactly for an empty response; otherwise a row of the response |
| `Auth.LookupFindsMatch` | src/services/auth.ts:91-96 | a lookup finds a profile exactly when the table holds one for the user |
| `Auth.LookupFindsFirstMatch` | src/services/auth.ts:91-96 | the profile found is the user's earliest one in table order |
| `Auth.DeriveUsername` | src/services/auth.ts:35 | the username is the e-mail's local part (up to the first `@`), or `user` plus the clock reading when there is no address or its local part is empty; it is never empty and never contains `@` |
| `Auth.DisplayNameFor` | src/services/auth.ts:39 | a non-empty name wins, otherwise the username |
| `Auth.HandleOAuthCallback` | src/services/auth.ts:17-49 | succeeds only with both a token and a user id, else stores nothing; stores both before the profile check and keeps them even when it throws, unless the lookup or the insert is refused with 401, which signs out and redirects to `/login`; inserts a derived profile only when the lookup finds none |
| `Auth.Register` | src/services/auth.ts:50-71 | stores the account's credentials, then inserts its profile with the display-name fallback; a rejected account request writes nothing; a 401 on either request leaves both keys removed and redirects to `/login` |
| `Auth.Login` | src/services/auth.ts:73-84 | a session stores its token and user id and leaves other keys alone; a rejected one stores nothing, and a 401 rejection removes both keys and redirects to `/login` |
| `Auth.RefusalAlwaysSignsOut` | src/services/api.ts:25-35 | whichever auth operation is under way, a 401 that redirects leaves nobody signed in |
| `Auth.Logout` | src/services/auth.ts:98-102 | removes both keys, leaves the rest, writes nothing, and goes to `/login` |
| `Auth.LogoutUndoesLogin` | src/services/auth.ts:73-102 | logging in and then out leaves the store that logging out alone leaves |
| `Text.IntToString` | src/services/posts.ts:13 | a number in a template literal renders as a `-` exactly when negative, then digits that read back as its magnitude |
| `Posts.RangeHeader` | src/services/posts.ts:13 | the Range header is the start, a `-`, then the end, each in decimal |
| `Posts.PageRequestFor` | src/services/posts.ts:5-16 | the Range header asks for exactly `limit` items starting at `offset` |
| `Posts.DefaultRange` | src/services/posts.ts:5-13 | the default page asks for items `0-19` |
| `Posts.MediaOf` | src/services/posts.ts:31-40 | reference definition: the media rows of one post, in response order |
| `Posts.GroupByPost` | src/services/posts.ts:31-35 | the `reduce` grouping has a key for each post id in the response, and each group is non-empty and holds only that post's rows |
| `Posts.GroupByPostIsMediaOf` | src/services/posts.ts:31-35 | the `reduce` grouping holds exactly each post's rows in response order, and no key without rows |
| `Posts.AttachMedia` | src/services/posts.ts:37-40 | each post gets exactly its own rows, or `[]`; count, order and all other fields of the posts are unchanged |
| `Posts.LastProfileFor` | src/services/posts.ts:50-53 | reference definition: the chosen profile belongs to the user and is absent only when the user has no row |
| `Posts.LastProfileIsLast` | src/services/posts.ts:50-53 | no later row belongs to the same user, so a duplicate resolves to the last one |
| `Posts.ProfilesByUser` | src/services/posts.ts:50-53 | the keyed `reduce` has a key for each author in the response, holding a profile of that author |
| `Posts.ProfilesByUserIsLast` | src/services/posts.ts:50-53 | the keyed `reduce` holds, for each user, the last of that user's profiles |
| `Posts.AttachProfiles` | src/services/posts.ts:55-58 | each post's `user_profile` is its author's last profile, or undefined; nothing else changes |
| `Posts.Distinct` | src/services/posts.ts:22 | the author-id list holds each distinct `user_id` of the page exactly once |
| `Posts.GetPosts` | src/services/posts.ts:5-62 | an empty page comes back as-is with no lookups; otherwise media are queried by post ids and profiles by distinct author ids; the result is the page with only `media` and `user_profile` joined |
| `Posts.MediaTypeOf` | src/services/posts.ts:106 | `video` exactly for a `video/` MIME type, `image` otherwise |
| `Posts.UploadFilename` | src/services/posts.ts:84-85 | the name is `<post id>_<index>_`, then exactly the clock reading's digits, then `.` and the file's extension |
| `Posts.UploadFilenameIdentifiesUpload` | src/services/posts.ts:84-85 | for any two files of one post, whatever their names, equal generated names mean the same position and clock reading, so two uploads never share a name |
| `Posts.MediaUrl` | src/services/posts.ts:105 | the URL is the reply's url, else its path, else the storage object path of the key or file name; it is never empty |
| `Posts.CreatePost` | src/services/posts.ts:64-114 | without a user it throws before any request; a rejected post insert throws before any upload; otherwise it inserts the post, then one media record per file with `order_index` 0..n-1, the derived type and URL |
| `Posts.LikeMutationFor` | src/services/posts.ts:116-138 | like inserts and unlike deletes the (user, post) edge; with no user both throw |
| `Posts.ApplyLike` | src/services/posts.ts:116-138 | an insert appends the edge and keeps every existing row (as multisets: the old table plus the edge); a delete removes every matching row and nothing else |
| `Posts.LikeThenUnlikeRestoresTable` | src/services/posts.ts:116-138 | like then unlike of a post not yet liked leaves the likes table as it was |
| `Posts.LikedPostIds` | src/pages/Home.tsx:28 | the liked set holds exactly the `post_id`s of the like rows |
| `Posts.AddComment` | src/services/posts.ts:147-160 | the insert carries the post, the stored user and the content as given; with no user it throws |
| `Home.AnnotateLikes` | src/pages/Home.tsx:28-32 | each post is flagged liked exactly when a like row names it; nothing else changes |
| `Home.LoadedPage` | src/pages/Home.tsx:20-38 | the like query runs only for a signed-in user and a non-empty page; a failed lookup keeps the posts unannotated |
| `Home.ViewOf` | src/pages/Home.tsx:69-84 | the spinner shows while loading; otherwise a non-empty error shows instead of the feed |
| `Home.LoadPostsAsWritten` | src/pages/Home.tsx:17-45 | a failed load sets the error; a successful one keeps whatever error was there and otherwise matches the corrected load |
| `Home.RetryAsWrittenKeepsError` | src/pages/Home.tsx:37-84 | after a failed load, a successful retry still renders the error view |
| `Home.LoadPosts` | src/pages/Home.tsx:17-45 | corrected load: a success clears any earlier error and shows the feed |
| `Home.LoadShowsFeed` | src/pages/Home.tsx:17-84 | with the corrected load, any successful load shows the feed with like flags set exactly from the like rows |
| `Home.HandleLike` | src/pages/Home.tsx:47-67 | on success, the target's flag becomes `!isLiked` and its count moves by exactly 1; other posts, the length and the order are unchanged; a failure changes nothing |
| `Home.LikeThenUnlikeRestores` | src/pages/Home.tsx:55-63 | like then unlike restores every count and leaves the post's flag explicitly unliked; a post whose flag started as `Some(false)` is restored exactly, while one that started unset ends as `Some(false)` |
| `PostCard.NextImage` | src/components/PostCard.tsx:19-23 | moves right exactly when there is a later item |
| `PostCard.PrevImage` | src/components/PostCard.tsx:25-29 | moves left exactly when the index is positive |
| `PostCard.NavigationStaysInCarousel` | src/components/PostCard.tsx:15-29 | any sequence of clicks keeps 0 <= index <= max(len-1, 0) |
| `PostCard.ArrowsFor` | src/components/PostCard.tsx:77-88 | arrows appear only with two or more items, and then exactly when clicking them moves |
| `PostCard.ShownName` | src/components/PostCard.tsx:46 | username, else display name, else `Anonymous`; never empty |
| `PostCard.JoinedPostWithoutProfileIsAnonymous` | src/components/PostCard.tsx:36-46 | a feed post whose author has no profile row still loads, shown as `Anonymous` with the `U` placeholder |
| `PostCard.AvatarOf` | src/components/PostCard.tsx:36-42 | the profile's own picture URL when there is one; otherwise the uppercased first letter of the username, or `U` |
| `PostCard.LikesLabel` | src/components/PostCard.tsx:123-127 | a line appears only for a positive count; it is the count, a space and `like` for a count of 1 or `likes` otherwise, with nothing after |
| `PostCard.CommentsLabel` | src/components/PostCard.tsx:139-143 | `View all N comments` appears only for a positive count, with exactly the count's digits as N |
| `PostCard.OnCommentAdded` | src/components/PostCard.tsx:154 | the local comment count goes up by exactly 1 and nothing else on the card changes |
| `PostCard.CommentCounterCountsSubmissions` | src/components/PostCard.tsx:154 | n added comments raise the counter by exactly n |
| `PostCard.LikeNotShownAsWritten` | src/components/PostCard.tsx:123-127 | as written, liking a post with no likes leaves the card without a likes line |
| `PostCard.LikesShownAsWritten` | src/components/PostCard.tsx:123-127 | the likes line follows the copy of the post taken at mount, not the post passed in |
| `PostCard.LikesShown` | src/components/PostCard.tsx:123-127 | corrected likes line: drawn from the post currently passed in |
| `PostCard.LikeShown` | src/components/PostCard.tsx:123-127 | with the corrected line, a like shows the count plus one |
| `Comments.Enrich` | src/components/Comments.tsx:34-37 | a comment gets a profile of its own author, or none exactly when the author has none |
| `Comments.LoadComments` | src/components/Comments.tsx:28-45 | the loaded comments keep the fetched count and order, each enriched; an empty list loads as empty; a failure keeps the old list |
| `Comments.HandleSubmit` | src/components/Comments.tsx:47-65 | a blank input or a submission in flight does nothing; the untrimmed input is sent; on success the comment is prepended, the input cleared and the card notified once; on failure the list and input are kept; `submitting` ends false |
| `Comments.SubmitKeepsExisting` | src/components/Comments.tsx:57 | earlier comments stay, in order, behind whatever was prepended |
| `CreatePostPage.HandleFileSelect` | src/pages/CreatePost.tsx:16-31 | more than 10 files only sets the error; otherwise the selection replaces the files, with one preview each |
| `CreatePostPage.RemoveAt` | src/pages/CreatePost.tsx:33-36 | the position filter removes exactly position `index`, keeps the rest in order, and removes nothing for an out-of-range index |
| `CreatePostPage.RemoveFile` | src/pages/CreatePost.tsx:33-36 | files and previews lose the same position and every other entry keeps its place |
| `CreatePostPage.InitialValid` | src/pages/CreatePost.tsx:9-14 | the composer opens empty, within the cap and with no error |
| `CreatePostPage.SelectKeepsValid` | src/pages/CreatePost.tsx:16-31 | selecting keeps at most 10 files with one preview each |
| `CreatePostPage.RemoveKeepsValid` | src/pages/CreatePost.tsx:33-36 | removing keeps the cap and keeps each file beside its own preview |
| `CreatePostPage.NormalizeLocation` | src/pages/CreatePost.tsx:49 | an empty location becomes undefined; any other is passed as-is |
| `CreatePostPage.HandleSubmit` | src/pages/CreatePost.tsx:38-56 | with no files it sets an error and makes no call; otherwise it calls create once, going home on success and showing the server message or a default on failure, and only `loading` and `error` change |
| `CreatePostPage.ElevenFilesRefused` | src/pages/CreatePost.tsx:16-21 | selecting 11 files keeps the earlier files, so no submission carries more than 10 |
| `CreatePostPage.TenFilesPlanTenMedia` | src/pages/CreatePost.tsx:38-56 | selecting 10 files and submitting plans 10 media records with indexes 0 to 9 in selection order |
| `Profile.IsOwnProfile` | src/pages/Profile.tsx:12-13 | one's own profile exactly when the route id equals the stored id |
| `Profile.LoadProfile` | src/pages/Profile.tsx:29-36 | the header shows the first profile row, or none; a failed request keeps it |
| `Profile.LoadPosts` | src/pages/Profile.tsx:38-68 | no posts means no media query; otherwise each post gets exactly its own rows; a failure keeps the grid |
| `Profile.CheckFollowStatus` | src/pages/Profile.tsx:70-81 | no query without a user or on one's own profile; otherwise following exactly when an edge exists |
| `Profile.HandleFollow` | src/pages/Profile.tsx:83-109 | with no user nothing happens; on success the flag flips and a loaded header's follower count moves by 1 in step; a failure changes nothing |
| `Profile.FollowThenUnfollowRestores` | src/pages/Profile.tsx:83-109 | follow then unfollow restores the page exactly |
| `Profile.InitialPanelIsPosts` | src/pages/Profile.tsx:17 | a freshly opened profile offers and shows the POSTS panel |
| `Profile.TabsShown` | src/pages/Profile.tsx:182-206 | the SAVED tab is offered exactly on one's own profile |
| `Profile.PanelShown` | src/pages/Profile.tsx:209-245 | the selected tab's panel shows, except that the saved panel is blank exactly on someone else's profile |

## Left out

- Rendering is not modelled: JSX markup, CSS, icons, the router (src/App.tsx), src/components/Layout.tsx and src/components/Stories.tsx, which shows static placeholder data.
- The choice between `<video>` and `<img>`, the relative-time labels (`formatDistanceToNow`) and the comment panel's own `'user'` name and avatar fallbacks are display only.
- src/pages/Login.tsx, src/pages/Register.tsx and src/pages/AuthCallback.tsx are form and navigation plumbing around the auth service. Their `navigate`, `setTimeout` and `window.location` redirects are out of scope.
- `getCurrentUser` returns the response's `user` field and `getComments` returns the response body; neither has logic beyond the request, so there is nothing to state.
- `getGoogleAuthUrl` is modelled only up to its redirect address. `encodeURIComponent` and the returned `authUrl` belong to the backend.
- `URL.createObjectURL` is a parameter of `CreatePostPage.HandleFileSelect`. `revokeObjectURL`, `FormData` and `File` are browser objects.
- The upload bodies themselves are not modelled. Only the records the client writes are.
- Concurrency is not modelled: stale fetches, interleaved clicks and the effect hooks that start loads.
- The services in `Posts` and the pages take a rejected response as `None`, without its status. A 401 among them triggers the same `Api.InterceptResponse` sign-out, which these members leave to the caller; only `Auth` composes it into its results.
- Partial failure inside `createPost`'s upload loop is not modelled. `Posts.CreatePost` assumes every upload is answered.
- Register's account-then-profile sequence is not transactional. The model shows this only as credentials stored with a failed outcome.
- `Posts.GetPosts` takes JavaScript object keys as plain strings. A post id such as `__proto__` would behave differently in the `reduce` maps.
- `Api.InterceptRequest` treats header names as exact strings. Axios compares them case-insensitively.
- `PostCard.AvatarOf`: uppercases ASCII letters only, because full Unicode case mapping (where one character can become several) is out of scope. Its first letter is a Unicode scalar value, where JavaScript's `username?.[0]` is a UTF-16 code unit, so a name starting outside the Basic Multilingual Plane shows half a surrogate pair in the source.
- Counters are unbounded integers. JavaScript numbers are exact far beyond any reachable count.
- A profile's optional `user` link and the `Story` record are not modelled, because no modelled operation reads them.

## Findings

| source | as written | input that shows it | evidently intended | confidence | as-written member | corrected member |
|---|---|---|---|---|---|---|
| src/pages/Home.tsx:37-44 | a successful `loadPosts` never resets `error` | the first load fails, then "Try Again" succeeds: `error` is still "Failed to load posts", so the page keeps showing the error view | a successful load clears the error and shows the feed | not executed; high | `Home.LoadPostsAsWritten` (shown by `Home.RetryAsWrittenKeepsError`) | `Home.LoadPosts` (proved by `Home.LoadShowsFeed`) |
| src/components/PostCard.tsx:17,123-127 | the likes line reads `localPost`, a copy of the post taken at mount by `useState(post)` | a post with 0 likes is liked: the feed's copy has 1 like, but the card still shows no likes line | the likes line follows the post passed in, so the optimistic count shows | not executed; medium | `PostCard.LikesShownAsWritten` (shown by `PostCard.LikeNotShownAsWritten`) | `PostCard.LikesShown` (proved by `PostCard.LikeShown`) |

=== FILE: api.dfy ===
/** The shared HTTP client: its base URL, the request interceptor that adds
    the bearer token and a default JSON content type, and the response
    interceptor that signs the user out on HTTP 401. */
module Api {
  import opened Wrappers
  import opened Storage
  import Types
  import Text

  const AuthorizationHeader := "Authorization"
  const ContentTypeHeader := "Content-Type"
  const JsonContentType := "application/json"
  const LoginPath := "/login"
  const Unauthorized := 401

  /** `VITE_API_BASE_URL` + "/api" when that variable is set, else "/api". */
  function BaseUrl(env: Option<string>): (r: string)
    ensures Text.EndsWith(r, "/api")
    ensures Types.Truthy(env) ==> Text.StartsWith(r, env.value) && |r| == |env.value| + 4
    ensures !Types.Truthy(env) ==> |r| == 4
  {
    var prefix := if Types.Truthy(env) then env.value else "";
    assert (prefix + "/api")[|prefix|..] == "/api";
    prefix + "/api"
  }

  /** What a request carries; only whether it is multipart form data matters. */
  datatype Body = NoBody | JsonBody | FormDataBody

  datatype RequestConfig = RequestConfig(headers: map<string, string>, body: Body)

  /** `!config.headers[name]`: the header is missing or empty. */
  predicate HeaderUnset(headers: map<string, string>, name: string) {
    name !in headers || headers[name] == ""
  }

  /** The request interceptor. */
  function InterceptRequest(store: Store, config: RequestConfig): (r: RequestConfig)
    ensures r.body == config.body
    // a stored token always becomes the bearer credential ...
    ensures Types.Truthy(GetItem(store, TokenKey)) ==>
      AuthorizationHeader in r.headers && r.headers[AuthorizationHeader] == "Bearer " + store[TokenKey]
    // ... and without one, whatever the caller put there is left alone
    ensures !Types.Truthy(GetItem(store, TokenKey)) ==>
      Header(r.headers, AuthorizationHeader) == Header(config.headers, AuthorizationHeader)
    // JSON is the default content type, except for form data
    ensures HeaderUnset(config.headers, ContentTypeHeader) && config.body != FormDataBody ==>
      ContentTypeHeader in r.headers && r.headers[ContentTypeHeader] == JsonContentType
    // an explicit content type, or an unset one on form data, is never touched
    ensures !HeaderUnset(config.headers, ContentTypeHeader) || config.body == FormDataBody ==>
      Header(r.headers, ContentTypeHeader) == Header(config.headers, ContentTypeHeader)
    // no other header changes
    ensures forall h :: h != AuthorizationHeader && h != ContentTypeHeader ==>
      Header(r.headers, h) == Header(config.headers, h)
  {
    var withAuth :=
      if Types.Truthy(GetItem(store, TokenKey))
      then config.headers[AuthorizationHeader := "Bearer " + store[TokenKey]]
      else config.headers;
    var withType :=
      if HeaderUnset(withAuth, ContentTypeHeader) && config.body != FormDataBody
      then withAuth[ContentTypeHeader := JsonContentType]
      else withAuth;
    config.(headers := withType)
  }

  /** Lookup in a header map, `None` for a missing header. */
  function Header(headers: map<string, string>, name: string): Option<string> {
    if name in headers then Some(headers[name]) else None
  }

  /** How a request settled: resolved with a response, or rejected with the
      HTTP status of the error response (`None` when there was no response). */
  datatype Settled = Resolved | Rejected(status: Option<int>)

  /** A response as the calling service sees it: the resolved body, or a
      rejection with the error response's HTTP status (`None` without one). */
  datatype Reply<+T> = Ok(value: T) | Err(status: Option<int>)

  /** How a reply settled, as the response interceptor sees it. */
  function SettledOf<T>(reply: Reply<T>): (r: Settled)
    ensures r.Resolved? <==> reply.Ok?
    ensures reply.Err? ==> r.status == reply.status
  {
    match reply
    case Ok(_) => Resolved
    case Err(status) => Rejected(status)
  }

  /** The response interceptor's effect: the store afterwards, how the
      promise settles for the caller, and where the browser is sent. */
  datatype Intercepted = Intercepted(store: Store, settled: Settled, redirect: Option<string>)

  predicate IsUnauthorized(s: Settled) {
    s.Rejected? && s.status == Some(Unauthorized)
  }

  /** The response interceptor. */
  function InterceptResponse(store: Store, settled: Settled): (r: Intercepted)
    // every outcome reaches the caller as it came: success passes through, errors still reject
    ensures r.settled == settled
    ensures IsUnauthorized(settled) ==> r.store == ClearCredentials(store) && r.redirect == Some(LoginPath)
    ensures !IsUnauthorized(settled) ==> r.store == store && r.redirect == None
  {
    match settled
    case Resolved => Intercepted(store, settled, None)
    case Rejected(status) =>
      if status == Some(Unauthorized)
      then Intercepted(ClearCredentials(store), settled, Some(LoginPath))
      else Intercepted(store, settled, None)
  }

  /** After a 401 no credential survives: the next request goes out without
      a bearer token, and every "am I signed in" check fails. */
  lemma UnauthorizedSignsOut(store: Store, settled: Settled, next: RequestConfig)
    requires IsUnauthorized(settled)
    requires AuthorizationHeader !in next.headers
    ensures var after := InterceptResponse(store, settled).store;
      && SignedInUser(after) == None
      && AuthorizationHeader !in InterceptRequest(after, next).headers
  {
  }
}

=== FILE: auth.dfy ===
/** The authentication service: sign-in redirect address, completing an
    OAuth callback, registering, signing in and out, and profile lookup.
    Each network call is an input (a `Reply`, or how it `Settled`, after the
    shared response interceptor) and each record the client writes is an output. */
module Auth {
  import opened Wrappers
  import opened Types
  import opened Storage
  import Text
  import opened Api

  const CallbackPath := "/auth/callback"
  const UsernameFallbackPrefix := "user"

  /** The callback address handed to the OAuth provider:
      `VITE_APP_URL` when set, else the page's origin, then the callback path. */
  function RedirectUrl(appUrl: Option<string>, origin: string): (r: string)
    ensures Text.EndsWith(r, CallbackPath)
    ensures Truthy(appUrl) ==> Text.StartsWith(r, appUrl.value)
    ensures !Truthy(appUrl) ==> Text.StartsWith(r, origin)
    ensures |r| == |if Truthy(appUrl) then appUrl.value else origin| + |CallbackPath|
  {
    (if Truthy(appUrl) then appUrl.value else origin) + CallbackPath
  }

  /** The rows the backend returns for `user_profiles?user_id=eq.<id>`, in table order. */
  function ProfilesOf(table: seq<UserProfile>, userId: string): (r: seq<UserProfile>)
    ensures forall p :: p in r <==> p in table && p.userId == userId
    ensures |r| <= |table|
  {
    if |table| == 0 then []
    else (if table[0].userId == userId then [table[0]] else []) + ProfilesOf(table[1..], userId)
  }

  /** `getUserProfile`: the first row of the response, or `null` when there is none. */
  function GetUserProfile(rows: seq<UserProfile>): (r: Option<UserProfile>)
    ensures r.None? <==> |rows| == 0
    ensures r.Some? ==> r.value in rows
  {
    if |rows| == 0 then None else Some(rows[0])
  }

  /** Looking a user up finds a profile exactly when the table holds one for that user. */
  lemma {:induction false} LookupFindsMatch(table: seq<UserProfile>, userId: string)
    ensures GetUserProfile(ProfilesOf(table, userId)).Some? <==>
      exists i :: 0 <= i < |table| && table[i].userId == userId
  {
    if GetUserProfile(ProfilesOf(table, userId)).Some? {
      var p := ProfilesOf(table, userId)[0];
      assert p in table;
      var i :| 0 <= i < |table| && table[i] == p;
    } else {
      forall i | 0 <= i < |table| ensures table[i].userId != userId {
        assert table[i] in table;
      }
    }
  }

  /** The profile found is the user's earliest one in table order. */
  lemma {:induction false} LookupFindsFirstMatch(table: seq<UserProfile>, userId: string, i: nat)
    requires i < |table| && table[i].userId == userId
    requires forall j :: 0 <= j < i ==> table[j].userId != userId
    ensures GetUserProfile(ProfilesOf(table, userId)) == Some(table[i])
    decreases i
  {
    if i > 0 {
      assert table[0].userId != userId;
      LookupFindsFirstMatch(table[1..], userId, i - 1);
    } else {
      assert ProfilesOf(table, userId)[0] == table[0];
    }
  }

  /** The username synthesised for a new OAuth user: the local part of the
      e-mail address (`email.split('@')[0]`), or `"user"` followed by the
      clock reading when there is no address or its local part is empty. */
  function DeriveUsername(email: Option<string>, now: nat): (r: string)
    ensures r != "" && '@' !in r
    // with a usable local part: r is exactly the text up to the first '@'
    ensures Truthy(email) && email.value[0] != '@' ==>
      && Text.StartsWith(email.value, r)
      && (|r| == |email.value| || email.value[|r|] == '@')
    ensures !(Truthy(email) && email.value[0] != '@') ==>
      && Text.StartsWith(r, UsernameFallbackPrefix)
      && r[|UsernameFallbackPrefix|..] == Text.NatToString(now)
  {
    var local := if email.Some? then Text.BeforeFirst(email.value, '@') else "";
    if local != "" then local else UsernameFallbackPrefix + Text.NatToString(now)
  }

  /** `name || username`: the display name falls back to the username. */
  function DisplayNameFor(name: Option<string>, username: string): (r: string)
    ensures r != "" <==> Truthy(name) || username != ""
    ensures r == username || (name.Some? && r == name.value)
    // a non-empty name wins; the username is only the fallback
    ensures Truthy(name) ==> r == name.value
    ensures !Truthy(name) ==> r == username
  {
    if Truthy(name) then name.value else username
  }

  /** The `user_profiles` record the client inserts. */
  datatype ProfileInsert = ProfileInsert(userId: string, username: string, displayName: string)

  /** The four callback URL parameters; `None` is a missing parameter. */
  datatype CallbackParams = CallbackParams(
    accessToken: Option<string>,
    userId: Option<string>,
    email: Option<string>,
    name: Option<string>)

  /** `{success: true, userId, email, name}`, `{success: false}`, or a thrown error. */
  datatype CallbackOutcome =
    | SignedIn(userId: string, email: Option<string>, name: Option<string>)
    | NotSignedIn
    | Threw

  /** The callback's result, the store afterwards, the profile it wrote, and
      where the response interceptor sent the browser, if anywhere. */
  datatype CallbackStep = CallbackStep(outcome: CallbackOutcome, store: Store, insert: Option<ProfileInsert>,
                                       redirect: Option<string>)

  /** The backend refused a request of the callback with HTTP 401: the profile
      lookup, or the profile insert that follows an empty lookup. */
  predicate CallbackRefused(lookup: Reply<seq<UserProfile>>, inserted: Settled) {
    || (lookup.Err? && lookup.status == Some(Api.Unauthorized))
    || (lookup == Ok([]) && Api.IsUnauthorized(inserted))
  }

  /** `handleOAuthCallback`. `lookup` is the response to the profile query for
      the user, `inserted` how inserting a new profile settles, and `now` the
      clock reading used for the fallback username. Every response passes
      through the response interceptor before the service sees it. */
  function HandleOAuthCallback(params: CallbackParams, store: Store, lookup: Reply<seq<UserProfile>>,
                               inserted: Settled, now: nat): (r: CallbackStep)
    // success needs both a token and a user id; otherwise nothing is stored or written
    ensures r.outcome.NotSignedIn? <==> !(Truthy(params.accessToken) && Truthy(params.userId))
    ensures r.outcome.NotSignedIn? ==> r.store == store && r.insert == None && r.redirect == None
    // the credentials are stored before the profile check and stay, even if it throws ...
    ensures !r.outcome.NotSignedIn? && !CallbackRefused(lookup, inserted) ==>
      r.store == SaveCredentials(store, params.accessToken.value, params.userId.value) && r.redirect == None
    // ... unless the backend refuses the token, which signs the user out again
    ensures !r.outcome.NotSignedIn? && CallbackRefused(lookup, inserted) ==>
      r.store == ClearCredentials(store) && r.redirect == Some(Api.LoginPath) && r.outcome.Threw?
    // a profile is written only when the lookup answered and found none
    ensures r.insert.Some? <==> !r.outcome.NotSignedIn? && lookup == Ok([])
    ensures r.insert.Some? ==>
      var username := DeriveUsername(params.email, now);
      r.insert.value == ProfileInsert(params.userId.value, username, DisplayNameFor(params.name, username))
    ensures r.outcome.SignedIn? <==>
      && Truthy(params.accessToken) && Truthy(params.userId)
      && lookup.Ok? && (|lookup.value| > 0 || inserted.Resolved?)
    ensures r.outcome.SignedIn? ==>
      r.outcome == SignedIn(params.userId.value, params.email, params.name)
  {
    if !(Truthy(params.accessToken) && Truthy(params.userId)) then
      CallbackStep(NotSignedIn, store, None, None)
    else
      var userId := params.userId.value;
      var saved := SaveCredentials(store, params.accessToken.value, userId);
      ClearUndoesSave(store, params.accessToken.value, userId);
      match lookup
      case Err(_) =>
        var seen := Api.InterceptResponse(saved, Api.SettledOf(lookup));
        CallbackStep(Threw, seen.store, None, seen.redirect)
      case Ok(rows) =>
        if GetUserProfile(rows).Some? then
          CallbackStep(SignedIn(userId, params.email, params.name), saved, None, None)
        else
          var username := DeriveUsername(params.email, now);
          var insert := ProfileInsert(userId, username, DisplayNameFor(params.name, username));
          var seen := Api.InterceptResponse(saved, inserted);
          var outcome := if inserted.Resolved? then SignedIn(userId, params.email, params.name) else Threw;
          CallbackStep(outcome, seen.store, Some(insert), seen.redirect)
  }

  /** What the session endpoints return: a token and the account. */
  datatype AuthResponse = AuthResponse(accessToken: string, user: User)

  /** The store afterwards, the profile written, the value the service returns
      (`None` when it throws), and the response interceptor's redirect. */
  datatype SessionStep = SessionStep(store: Store, insert: Option<ProfileInsert>, outcome: Option<AuthResponse>,
                                     redirect: Option<string>)

  /** `register`: create the account, store its credentials, then insert its
      profile with the chosen username. `reply` is the account response and
      `inserted` how the profile insert settles. */
  function Register(store: Store, username: string, name: Option<string>,
                    reply: Reply<AuthResponse>, inserted: Settled): (r: SessionStep)
    // a rejected account request writes nothing; a 401 on it still signs out
    ensures reply.Err? ==> r.insert == None && r.outcome == None
    ensures reply.Err? && reply.status != Some(Api.Unauthorized) ==> r.store == store && r.redirect == None
    ensures reply.Err? && reply.status == Some(Api.Unauthorized) ==>
      r.store == ClearCredentials(store) && r.redirect == Some(Api.LoginPath)
    // an account's credentials are stored, then its profile is inserted ...
    ensures reply.Ok? ==>
      r.insert == Some(ProfileInsert(reply.value.user.id, username, DisplayNameFor(name, username)))
    ensures reply.Ok? && !Api.IsUnauthorized(inserted) ==>
      r.store == SaveCredentials(store, reply.value.accessToken, reply.value.user.id) && r.redirect == None
    // ... and a 401 on that insert removes them again
    ensures reply.Ok? && Api.IsUnauthorized(inserted) ==>
      r.store == ClearCredentials(store) && r.redirect == Some(Api.LoginPath)
    ensures r.outcome.Some? <==> reply.Ok? && inserted.Resolved?
    ensures r.outcome.Some? ==> r.outcome.value == reply.value
  {
    match reply
    case Err(_) =>
      var seen := Api.InterceptResponse(store, Api.SettledOf(reply));
      SessionStep(seen.store, None, None, seen.redirect)
    case Ok(a) =>
      var saved := SaveCredentials(store, a.accessToken, a.user.id);
      ClearUndoesSave(store, a.accessToken, a.user.id);
      var insert := ProfileInsert(a.user.id, username, DisplayNameFor(name, username));
      var seen := Api.InterceptResponse(saved, inserted);
      SessionStep(seen.store, Some(insert), if inserted.Resolved? then Some(a) else None, seen.redirect)
  }

  /** `login`: store the session's credentials; a rejected request stores
      nothing, and one refused with 401 signs out whoever was signed in. */
  function Login(store: Store, reply: Reply<AuthResponse>): (r: SessionStep)
    ensures r.insert == None
    ensures r.outcome.Some? <==> reply.Ok?
    ensures reply.Ok? ==>
      && r.outcome.value == reply.value
      && GetItem(r.store, TokenKey) == Some(reply.value.accessToken)
      && GetItem(r.store, UserKey) == Some(reply.value.user.id)
      && SameOtherKeys(store, r.store)
      && r.redirect == None
    ensures reply.Err? && reply.status != Some(Api.Unauthorized) ==> r.store == store && r.redirect == None
    ensures reply.Err? && reply.status == Some(Api.Unauthorized) ==>
      r.store == ClearCredentials(store) && r.redirect == Some(Api.LoginPath)
  {
    match reply
    case Err(_) =>
      var seen := Api.InterceptResponse(store, Api.SettledOf(reply));
      SessionStep(seen.store, None, None, seen.redirect)
    case Ok(a) => SessionStep(SaveCredentials(store, a.accessToken, a.user.id), None, Some(a), None)
  }

  /** Whatever the auth service is doing, a request the backend refuses with
      401 leaves nobody signed in and sends the browser to the login page. */
  lemma RefusalAlwaysSignsOut(store: Store, params: CallbackParams, lookup: Reply<seq<UserProfile>>,
                              inserted: Settled, now: nat, username: string, name: Option<string>,
                              reply: Reply<AuthResponse>)
    ensures var c := HandleOAuthCallback(params, store, lookup, inserted, now);
      c.redirect.Some? ==> SignedInUser(c.store) == None && c.redirect == Some(Api.LoginPath)
    ensures var g := Register(store, username, name, reply, inserted);
      g.redirect.Some? ==> SignedInUser(g.store) == None && g.redirect == Some(Api.LoginPath)
    ensures var l := Login(store, reply);
      l.redirect.Some? ==> SignedInUser(l.store) == None && l.redirect == Some(Api.LoginPath)
  {
  }

  /** `logout`: forget both credentials and go to the login page. */
  function Logout(store: Store): (r: SessionStep)
    ensures GetItem(r.store, TokenKey) == None && GetItem(r.store, UserKey) == None
    ensures SameOtherKeys(store, r.store)
    ensures r.insert == None && r.outcome == None
    ensures r.redirect == Some(Api.LoginPath)
  {
    SessionStep(ClearCredentials(store), None, None, Some(Api.LoginPath))
  }

  /** Signing in and then out leaves exactly the store signing out alone leaves. */
  lemma LogoutUndoesLogin(store: Store, a: AuthResponse)
    ensures Logout(Login(store, Ok(a)).store).store == Logout(store).store
  {
  }
}

=== FILE: comments.dfy ===
/** The comment panel of a post: loading the comments with their authors'
    profiles, and submitting a new comment. */
module Comments {
  import opened Wrappers
  import opened Types
  import opened Storage
  import Text
  import Auth
  import Posts

  datatype CommentsState = CommentsState(comments: seq<Comment>, input: string, loading: bool, submitting: bool)

  /** `{ ...comment, user_profile: profile || undefined }`, the profile coming
      from the backend's `user_id=eq.` query over the profile table. */
  function Enrich(c: Comment, table: seq<UserProfile>): (r: Comment)
    ensures r == c.(userProfile := r.userProfile)
    ensures r.userProfile.Some? ==> r.userProfile.value in table && r.userProfile.value.userId == c.userId
    ensures r.userProfile.None? <==> forall p :: p in table ==> p.userId != c.userId
  {
    var rows := Auth.ProfilesOf(table, c.userId);
    assert rows == [] <==> forall p :: p in table ==> p.userId != c.userId by {
      if rows != [] { assert rows[0] in rows; }
    }
    c.(userProfile := Auth.GetUserProfile(rows))
  }

  /** `loadComments`. `fetched` is the comment list (`None` when the request
      rejects) and `table` the profile table the lookups read (`None` when a
      lookup rejects, which rejects them all). An empty list makes no lookup,
      so it loads whatever `table` says. */
  function LoadComments(s: CommentsState, fetched: Option<seq<Comment>>, table: Option<seq<UserProfile>>): (r: CommentsState)
    ensures r.loading == false && r.input == s.input && r.submitting == s.submitting
    ensures fetched == Some([]) ==> r.comments == []
    ensures fetched.Some? && table.Some? ==>
      && |r.comments| == |fetched.value|
      && forall i :: 0 <= i < |fetched.value| ==> r.comments[i] == Enrich(fetched.value[i], table.value)
    ensures fetched.None? || (fetched != Some([]) && table.None?) ==> r.comments == s.comments
  {
    if fetched == Some([]) then s.(comments := [], loading := false)
    else if fetched.Some? && table.Some? then
      var data := fetched.value;
      s.(comments := seq(|data|, i requires 0 <= i < |data| => Enrich(data[i], table.value)), loading := false)
    else s.(loading := false)
  }

  /** One submission: the state afterwards, the insert it issued, and how
      many times it called `onCommentAdded`. */
  datatype SubmitStep = SubmitStep(state: CommentsState, sent: Option<Posts.CommentInsert>, notified: nat)

  /** `handleSubmit`. `reply` is the insert's response rows (`None` when it
      rejects) and `table` the profile table for the author lookup. */
  function HandleSubmit(s: CommentsState, store: Store, postId: string,
                        reply: Option<seq<Comment>>, table: Option<seq<UserProfile>>): (r: SubmitStep)
    // a blank input, or a submission already in flight, does nothing at all
    ensures Text.IsBlank(s.input) || s.submitting ==> r == SubmitStep(s, None, 0)
    ensures !(Text.IsBlank(s.input) || s.submitting) ==>
      && r.state.submitting == false && r.state.loading == s.loading
      // the content sent is the input as typed, untrimmed
      && r.sent == Posts.AddComment(store, postId, s.input).ToOption()
    // `onCommentAdded` runs at most once per submission
    ensures r.notified <= 1
    // success: the card is told once, the new comment goes in front, the input clears
    ensures r.notified == 1 <==>
      && !(Text.IsBlank(s.input) || s.submitting)
      && r.sent.Some? && reply.Some? && |reply.value| > 0 && table.Some?
    ensures r.notified == 1 ==>
      && r.state.comments == [Enrich(reply.value[0], table.value)] + s.comments
      && r.state.input == ""
    // failure: list and input as they were
    ensures r.notified == 0 ==> r.state.comments == s.comments && r.state.input == s.input
  {
    Text.TrimEmptyIffBlank(s.input);
    if Text.Trim(s.input) == [] || s.submitting then SubmitStep(s, None, 0)
    else
      var failed := s.(submitting := false);
      match Posts.AddComment(store, postId, s.input)
      case Failure(_) => SubmitStep(failed, None, 0)
      case Success(insert) =>
        if reply.Some? && |reply.value| > 0 && table.Some? then
          var added := Enrich(reply.value[0], table.value);
          SubmitStep(s.(comments := [added] + s.comments, input := "", submitting := false), Some(insert), 1)
        else SubmitStep(failed, Some(insert), 0)
  }

  /** Submitting never reorders or drops the comments already shown: they
      are a suffix of the list afterwards. */
  lemma {:induction false} SubmitKeepsExisting(s: CommentsState, store: Store, postId: string,
                                               reply: Option<seq<Comment>>, table: Option<seq<UserProfile>>)
    ensures var after := HandleSubmit(s, store, postId, reply, table).state.comments;
      && |after| == |s.comments| + HandleSubmit(s, store, postId, reply, table).notified
      && after[|after| - |s.comments|..] == s.comments
  {
  }
}

=== FILE: createpost.dfy ===
/** The post composer page: choosing up to ten files with their previews,
    removing one, and submitting the post. */
module CreatePostPage {
  import opened Wrappers
  import opened Types
  import opened Storage
  import Posts

  const MaxFiles := 10
  const TooManyFiles := "Maximum 10 files allowed"
  const NoFiles := "Please select at least one image or video"
  const CreateFailedMessage := "Failed to create post"
  const HomePath := "/"

  datatype Composer = Composer(files: seq<Posts.MediaFile>, previews: seq<string>,
                               caption: string, location: string, loading: bool, error: string)

  const Initial := Composer([], [], "", "", false, "")

  /** At most ten files, and exactly one preview per file. */
  predicate Valid(c: Composer) {
    |c.files| <= MaxFiles && |c.files| == |c.previews|
  }

  /** The empty composer the page opens with satisfies the invariant. */
  lemma InitialValid()
    ensures Valid(Initial) && Initial.files == [] && Initial.error == ""
  {
  }

  /** `handleFileSelect`. `objectUrl` stands for `URL.createObjectURL`. */
  function HandleFileSelect(c: Composer, selected: seq<Posts.MediaFile>,
                            objectUrl: Posts.MediaFile -> string): (r: Composer)
    // too many files: only the error changes
    ensures |selected| > MaxFiles ==> r == c.(error := TooManyFiles)
    // otherwise the selection replaces the files wholesale, one preview each
    ensures |selected| <= MaxFiles ==>
      && r.files == selected
      && |r.previews| == |selected|
      && (forall i :: 0 <= i < |selected| ==> r.previews[i] == objectUrl(selected[i]))
      && r == c.(files := selected, previews := r.previews)
  {
    if |selected| > MaxFiles then c.(error := TooManyFiles)
    else c.(files := selected, previews := seq(|selected|, i requires 0 <= i < |selected| => objectUrl(selected[i])))
  }

  /** `xs.filter((_, i) => i !== index)`: keeps every position but `index`. */
  function RemoveAt<T>(xs: seq<T>, index: int): (r: seq<T>)
    ensures 0 <= index < |xs| ==> r == xs[..index] + xs[index + 1..]
    ensures !(0 <= index < |xs|) ==> r == xs
  {
    if |xs| == 0 then []
    else
      var rest := RemoveAt(xs[1..], index - 1);
      assert 0 < index < |xs| ==> xs[1..][..index - 1] + xs[1..][index..] == xs[1..index] + xs[index + 1..];
      (if index == 0 then [] else [xs[0]]) + rest
  }

  /** `removeFile(index)`: drops that position from both lists. */
  function RemoveFile(c: Composer, index: int): (r: Composer)
    ensures |r.files| == if 0 <= index < |c.files| then |c.files| - 1 else |c.files|
    ensures |r.previews| == if 0 <= index < |c.previews| then |c.previews| - 1 else |c.previews|
    ensures r == c.(files := r.files, previews := r.previews)
    // every other file keeps its position relative to its neighbours
    ensures forall j :: 0 <= j < |r.files| ==> r.files[j] == c.files[if 0 <= index <= j then j + 1 else j]
    ensures forall j :: 0 <= j < |r.previews| ==> r.previews[j] == c.previews[if 0 <= index <= j then j + 1 else j]
  {
    c.(files := RemoveAt(c.files, index), previews := RemoveAt(c.previews, index))
  }

  /** Choosing and removing files keeps the composer valid: never more than
      ten files, and each file still beside its own preview. */
  lemma SelectKeepsValid(c: Composer, selected: seq<Posts.MediaFile>, objectUrl: Posts.MediaFile -> string)
    requires Valid(c)
    ensures Valid(HandleFileSelect(c, selected, objectUrl))
  {
  }

  lemma RemoveKeepsValid(c: Composer, index: int)
    requires Valid(c)
    ensures Valid(RemoveFile(c, index))
    ensures forall j :: 0 <= j < |RemoveFile(c, index).files| ==>
      exists k :: 0 <= k < |c.files| &&
        RemoveFile(c, index).files[j] == c.files[k] && RemoveFile(c, index).previews[j] == c.previews[k]
  {
  }

  /** `location || undefined`. */
  function NormalizeLocation(location: string): (r: Option<string>)
    ensures r.None? <==> location == ""
    ensures r.Some? ==> r.value == location
  {
    if location == "" then None else Some(location)
  }

  /** The `createPost` call the page makes. */
  datatype CreateCall = CreateCall(caption: string, location: Option<string>, files: seq<Posts.MediaFile>)

  /** How that call settles; a failure may carry the server's message. */
  datatype CreateOutcome = Created | CreateFailed(message: Option<string>)

  datatype SubmitStep = SubmitStep(state: Composer, call: Option<CreateCall>, navigate: Option<string>)

  /** `handleSubmit`. */
  function HandleSubmit(c: Composer, outcome: CreateOutcome): (r: SubmitStep)
    // no files: an error and no call
    ensures |c.files| == 0 ==> r == SubmitStep(c.(error := NoFiles), None, None)
    ensures |c.files| > 0 ==>
      && r.call == Some(CreateCall(c.caption, NormalizeLocation(c.location), c.files))
      && r.state.loading == false
      && r.state.files == c.files
      // only `loading` and `error` move; caption, location and previews stay
      && r.state == c.(loading := false, error := r.state.error)
      && (r.navigate.Some? <==> outcome.Created?)
      && (r.navigate.Some? ==> r.navigate.value == HomePath && r.state.error == "")
      && (outcome.CreateFailed? ==>
            r.state.error == if Truthy(outcome.message) then outcome.message.value else CreateFailedMessage)
  {
    if |c.files| == 0 then SubmitStep(c.(error := NoFiles), None, None)
    else
      var call := CreateCall(c.caption, NormalizeLocation(c.location), c.files);
      match outcome
      case Created => SubmitStep(c.(loading := false, error := ""), Some(call), Some(HomePath))
      case CreateFailed(message) =>
        var error := if Truthy(message) then message.value else CreateFailedMessage;
        SubmitStep(c.(loading := false, error := error), Some(call), None)
  }

  /** Selecting eleven files is refused before anything reaches the network:
      the composer keeps its earlier files, so a submission can never carry
      more than ten. */
  lemma ElevenFilesRefused(c: Composer, selected: seq<Posts.MediaFile>, objectUrl: Posts.MediaFile -> string,
                           outcome: CreateOutcome)
    requires Valid(c) && |selected| == 11
    ensures HandleFileSelect(c, selected, objectUrl).files == c.files
    ensures var call := HandleSubmit(HandleFileSelect(c, selected, objectUrl), outcome).call;
      call.Some? ==> |call.value.files| <= MaxFiles
  {
  }

  /** Selecting ten files and submitting plans one post with ten media
      records, numbered 0 to 9 in selection order. */
  lemma {:induction false} TenFilesPlanTenMedia(c: Composer, selected: seq<Posts.MediaFile>,
                                                objectUrl: Posts.MediaFile -> string, outcome: CreateOutcome,
                                                store: Store, created: Option<seq<Post>>, uploadAt: nat -> Posts.UploadStep)
    requires |selected| == 10 && SignedInUser(store).Some? && created.Some? && |created.value| > 0
    ensures var call := HandleSubmit(HandleFileSelect(c, selected, objectUrl), outcome).call;
      && call.Some?
      && var plan := Posts.CreatePost(store, call.value.caption, call.value.location, call.value.files, created, uploadAt);
      && |plan.mediaInserts| == 10
      && forall i :: 0 <= i < 10 ==>
           plan.mediaInserts[i].orderIndex == i
           && plan.mediaInserts[i].mediaType == Posts.MediaTypeOf(selected[i].mimeType)
  {
  }
}

=== FILE: home.dfy ===
/** The home feed page: loading the feed with the viewer's like flags, and
    the optimistic like/unlike toggle. */
module Home {
  import opened Wrappers
  import opened Types
  import opened Storage
  import Posts

  const LoadFailed := "Failed to load posts"

  datatype HomeState = HomeState(posts: seq<Post>, loading: bool, error: string)

  /** The state the page mounts with. */
  const Initial := HomeState([], true, "")

  /** What the page renders: the spinner, the error with its retry button,
      or the feed (possibly the "No posts yet" message). */
  datatype View = Spinner | ErrorView(message: string) | FeedView(posts: seq<Post>)

  function ViewOf(s: HomeState): (v: View)
    // the spinner wins over everything, then an error over the feed
    ensures v.Spinner? <==> s.loading
    ensures v.ErrorView? <==> !s.loading && s.error != ""
    ensures v.ErrorView? ==> v.message == s.error
    ensures v.FeedView? ==> v.posts == s.posts
  {
    if s.loading then Spinner
    else if s.error != "" then ErrorView(s.error)
    else FeedView(s.posts)
  }

  /** Sets each post's `liked_by_user` from the viewer's like rows. */
  function AnnotateLikes(posts: seq<Post>, liked: seq<LikeRow>): (r: seq<Post>)
    ensures |r| == |posts|
    ensures forall i :: 0 <= i < |posts| ==>
      && r[i] == posts[i].(likedByUser := r[i].likedByUser)
      && r[i].likedByUser.Some?
      && (r[i].likedByUser.value <==> exists l :: l in liked && l.postId == posts[i].id)
  {
    var ids := Posts.LikedPostIds(liked);
    seq(|posts|, i requires 0 <= i < |posts| => posts[i].(likedByUser := Some(posts[i].id in ids)))
  }

  /** One load: the state afterwards and the like query it issued (viewer id
      and post ids), if any. */
  datatype HomeLoad = HomeLoad(state: HomeState, likesQuery: Option<(string, seq<string>)>)

  /** The page's posts after a successful feed request: annotated when a user
      is signed in, the page is non-empty and the like lookup answers; as
      fetched otherwise (a failed lookup only loses the flags). */
  function LoadedPage(store: Store, data: seq<Post>, likes: Option<seq<LikeRow>>): (r: HomeLoad)
    ensures r.state.loading == false && r.state.error == ""
    ensures r.likesQuery.Some? <==> SignedInUser(store).Some? && |data| > 0
    ensures r.likesQuery.Some? ==> r.likesQuery.value == (store[UserKey], Posts.PostIds(data))
    ensures r.likesQuery.Some? && likes.Some? ==> r.state.posts == AnnotateLikes(data, likes.value)
    ensures r.likesQuery.None? || likes.None? ==> r.state.posts == data
  {
    if SignedInUser(store).Some? && |data| > 0 then
      var query := Some((store[UserKey], Posts.PostIds(data)));
      match likes
      case Some(rows) => HomeLoad(HomeState(AnnotateLikes(data, rows), false, ""), query)
      case None => HomeLoad(HomeState(data, false, ""), query)
    else HomeLoad(HomeState(data, false, ""), None)
  }

  /** `loadPosts` as the source writes it. `feed` is what `getPosts()` resolves
      with (`None` when it rejects). On success it never resets `error`. */
  function LoadPostsAsWritten(s: HomeState, store: Store, feed: Option<seq<Post>>,
                              likes: Option<seq<LikeRow>>): (r: HomeLoad)
    ensures r.state.loading == false
    ensures feed.None? ==> r == HomeLoad(s.(loading := false, error := LoadFailed), None)
    ensures feed.Some? ==> r.state.error == s.error
    // apart from the kept error, a success does what the corrected load does
    ensures feed.Some? ==>
      && r.state == LoadPosts(s, store, feed, likes).state.(error := s.error)
      && r.likesQuery == LoadPosts(s, store, feed, likes).likesQuery
  {
    match feed
    case None => HomeLoad(s.(loading := false, error := LoadFailed), None)
    case Some(data) =>
      var loaded := LoadedPage(store, data, likes);
      loaded.(state := loaded.state.(error := s.error))
  }

  /** A failed load followed by a successful retry still shows the error: the
      retry button cannot bring the feed back. */
  lemma RetryAsWrittenKeepsError(store: Store, data: seq<Post>, likes: Option<seq<LikeRow>>)
    ensures var failed := LoadPostsAsWritten(Initial, store, None, None).state;
      ViewOf(LoadPostsAsWritten(failed, store, Some(data), likes).state) == ErrorView(LoadFailed)
  {
  }

  /** `loadPosts` with the error cleared on success, as the retry button intends. */
  function LoadPosts(s: HomeState, store: Store, feed: Option<seq<Post>>,
                     likes: Option<seq<LikeRow>>): (r: HomeLoad)
    ensures r.state.loading == false
    ensures feed.None? ==> r.state == s.(loading := false, error := LoadFailed) && r.likesQuery.None?
    // a success clears any earlier error and shows the loaded page
    ensures feed.Some? ==> r.state.error == "" && ViewOf(r.state).FeedView?
    ensures feed.Some? ==> r == LoadedPage(store, feed.value, likes)
  {
    match feed
    case None => HomeLoad(s.(loading := false, error := LoadFailed), None)
    case Some(data) => LoadedPage(store, data, likes)
  }

  /** Whatever state the page is in, a successful load shows the feed, each
      post flagged as liked exactly when the viewer's like rows name it. */
  lemma LoadShowsFeed(s: HomeState, store: Store, data: seq<Post>, likes: seq<LikeRow>)
    requires SignedInUser(store).Some?
    ensures var v := ViewOf(LoadPosts(s, store, Some(data), Some(likes)).state);
      && v.FeedView? && |v.posts| == |data|
      && forall i :: 0 <= i < |data| ==>
           (v.posts[i].likedByUser == Some(true) <==> exists l :: l in likes && l.postId == data[i].id)
  {
  }

  /** `liked_by_user || false`: how the card reads the flag it passes back. */
  predicate IsLiked(p: Post) {
    p.likedByUser == Some(true)
  }

  /** `handleLike(postId, isLiked)`. `ok` says whether the like write succeeds;
      when it (or the sign-in guard) fails the list is left as it was. */
  function HandleLike(posts: seq<Post>, store: Store, postId: string, isLiked: bool, ok: bool): (r: seq<Post>)
    ensures |r| == |posts|
    ensures Posts.LikeMutationFor(store, postId, isLiked).Failure? || !ok ==> r == posts
    ensures forall i :: 0 <= i < |posts| && posts[i].id != postId ==> r[i] == posts[i]
    ensures Posts.LikeMutationFor(store, postId, isLiked).Success? && ok ==>
      forall i :: 0 <= i < |posts| && posts[i].id == postId ==>
        && r[i] == posts[i].(likedByUser := r[i].likedByUser, likesCount := r[i].likesCount)
        && IsLiked(r[i]) == !isLiked && r[i].likedByUser.Some?
        && r[i].likesCount - posts[i].likesCount == (if isLiked then -1 else 1)
  {
    if Posts.LikeMutationFor(store, postId, isLiked).Failure? || !ok then posts
    else
      seq(|posts|, i requires 0 <= i < |posts| =>
        if posts[i].id == postId
        then posts[i].(likedByUser := Some(!isLiked),
                       likesCount := if isLiked then posts[i].likesCount - 1 else posts[i].likesCount + 1)
        else posts[i])
  }

  /** Liking a post and then unliking it restores every count; the target's
      flag ends up explicitly false, so a post that started unliked is back
      exactly where it was. */
  lemma LikeThenUnlikeRestores(posts: seq<Post>, store: Store, postId: string)
    requires SignedInUser(store).Some?
    ensures var r := HandleLike(HandleLike(posts, store, postId, false, true), store, postId, true, true);
      && |r| == |posts|
      && forall i :: 0 <= i < |posts| ==>
           r[i] == if posts[i].id == postId then posts[i].(likedByUser := Some(false)) else posts[i]
    ensures (forall i :: 0 <= i < |posts| && posts[i].id == postId ==> posts[i].likedByUser == Some(false)) ==>
      HandleLike(HandleLike(posts, store, postId, false, true), store, postId, true, true) == posts
  {
  }
}

=== FILE: postcard.dfy ===
/** One post in the feed: the media carousel, the author line and avatar,
    the likes and comments labels, and the card's local comment counter. */
module PostCard {
  import opened Wrappers
  import opened Types
  import opened Storage
  import Text
  import Home
  import Posts

  /** The card's own state: the carousel position and `localPost`, the copy
      of the post taken when the card mounts (`useState(post)`). */
  datatype CardState = CardState(imageIndex: int, localPost: Post)

  function Mount(post: Post): CardState {
    CardState(0, post)
  }

  /** Number of media items of a post; an absent list counts as none. */
  function MediaCount(media: Option<seq<PostMedia>>): nat {
    if media.Some? then |media.value| else 0
  }

  /** `handleNextImage`: one step right, unless already on the last item. */
  function NextImage(index: int, media: Option<seq<PostMedia>>): (r: int)
    ensures r == index || r == index + 1
    ensures r == index + 1 <==> index < MediaCount(media) - 1 && media.Some?
  {
    if media.Some? && index < |media.value| - 1 then index + 1 else index
  }

  /** `handlePrevImage`: one step left, unless already on the first item. */
  function PrevImage(index: int): (r: int)
    ensures r == index || r == index - 1
    ensures r == index - 1 <==> index > 0
  {
    if index > 0 then index - 1 else index
  }

  datatype Nav = Next | Prev

  /** The position after a run of clicks on the two arrows, first click first. */
  function Navigate(index: int, media: Option<seq<PostMedia>>, clicks: seq<Nav>): int
    decreases |clicks|
  {
    if |clicks| == 0 then index
    else
      var step := if clicks[0] == Next then NextImage(index, media) else PrevImage(index);
      Navigate(step, media, clicks[1..])
  }

  /** The position names a media item, or is 0 when there is none. */
  predicate InCarousel(index: int, media: Option<seq<PostMedia>>) {
    0 <= index <= if MediaCount(media) > 0 then MediaCount(media) - 1 else 0
  }

  /** No sequence of clicks moves the position out of the carousel. */
  lemma {:induction false} NavigationStaysInCarousel(index: int, media: Option<seq<PostMedia>>, clicks: seq<Nav>)
    requires InCarousel(index, media)
    ensures InCarousel(Navigate(index, media, clicks), media)
    decreases |clicks|
  {
    if |clicks| > 0 {
      var step := if clicks[0] == Next then NextImage(index, media) else PrevImage(index);
      NavigationStaysInCarousel(step, media, clicks[1..]);
    }
  }

  /** Which arrows the card draws. */
  datatype Arrows = Arrows(prev: bool, next: bool)

  function ArrowsFor(media: Option<seq<PostMedia>>, index: int): (r: Arrows)
    // the arrows appear only for a carousel of two or more items ...
    ensures r.prev || r.next ==> MediaCount(media) > 1
    // ... and there an arrow is drawn exactly when clicking it moves
    ensures MediaCount(media) > 1 ==> (r.prev <==> PrevImage(index) != index)
    ensures MediaCount(media) > 1 ==> (r.next <==> NextImage(index, media) != index)
  {
    if media.Some? && |media.value| > 1
    then Arrows(index > 0, index < |media.value| - 1)
    else Arrows(false, false)
  }

  const Anonymous := "Anonymous"

  /** The author name: username, else display name, else "Anonymous". */
  function ShownName(profile: Option<UserProfile>): (r: string)
    ensures r != ""
    ensures profile.Some? && profile.value.username != "" ==> r == profile.value.username
    ensures (profile.None? || profile.value.username == "") ==>
      r == (if profile.Some? && Truthy(profile.value.displayName) then profile.value.displayName.value else Anonymous)
  {
    if profile.Some? && profile.value.username != "" then profile.value.username
    else if profile.Some? && Truthy(profile.value.displayName) then profile.value.displayName.value
    else Anonymous
  }

  /** A feed post whose author has no profile row still renders: the join
      leaves its profile undefined and the card falls back to "Anonymous"
      with the "U" placeholder, without affecting the other posts. */
  lemma JoinedPostWithoutProfileIsAnonymous(limit: int, offset: int, page: seq<Post>, media: seq<PostMedia>,
                                            profiles: seq<UserProfile>, i: nat)
    requires i < |page|
    requires forall p :: p in profiles ==> p.userId != page[i].userId
    ensures var feed := Posts.GetPosts(limit, offset, Some(page), Some(media), Some(profiles)).posts;
      && feed.Some? && |feed.value| == |page|
      && ShownName(feed.value[i].userProfile) == Anonymous
      && AvatarOf(feed.value[i].userProfile) == Placeholder("U")
  {
  }

  /** The avatar: the profile picture, or a one-letter placeholder. */
  datatype Avatar = Picture(url: string) | Placeholder(letter: string)

  function AvatarOf(profile: Option<UserProfile>): (r: Avatar)
    ensures r.Picture? <==> profile.Some? && Truthy(profile.value.pictureUrl)
    ensures r.Picture? ==> r.url == profile.value.pictureUrl.value
    ensures r.Placeholder? ==> |r.letter| == 1 && !('a' <= r.letter[0] <= 'z')
    ensures r.Placeholder? && profile.Some? && profile.value.username != "" ==>
      Text.ToUpperAscii(profile.value.username[0]) == r.letter[0]
    ensures r.Placeholder? && (profile.None? || profile.value.username == "") ==> r.letter == "U"
  {
    if profile.Some? && Truthy(profile.value.pictureUrl) then Picture(profile.value.pictureUrl.value)
    else if profile.Some? && profile.value.username != "" then Placeholder([Text.ToUpperAscii(profile.value.username[0])])
    else Placeholder("U")
  }

  /** "1 like", "N likes", or no line at all for a count of zero or less. */
  function LikesLabel(count: int): (r: Option<string>)
    ensures r.Some? <==> count > 0
    ensures r.Some? ==> Text.StartsWith(r.value, Text.NatToString(count) + " like")
    ensures r.Some? ==> (Text.EndsWith(r.value, "likes") <==> count != 1)
    // nothing follows the noun
    ensures r.Some? ==> |r.value| == |Text.NatToString(count)| + (if count == 1 then 5 else 6)
  {
    if count > 0 then
      var noun := if count == 1 then "like" else "likes";
      var line := Text.NatToString(count) + " " + noun;
      assert line[..|Text.NatToString(count) + " like"|] == Text.NatToString(count) + " like";
      assert line[|line| - 5..] == "likes" ==> count != 1 by {
        if count == 1 { assert line == "1 like"; }
      }
      Some(line)
    else None
  }

  /** "View all N comments", shown only for a positive count. */
  function CommentsLabel(count: int): (r: Option<string>)
    ensures r.Some? <==> count > 0
    ensures r.Some? ==> Text.StartsWith(r.value, "View all ") && Text.EndsWith(r.value, " comments")
    // between the two, the count's digits and nothing else
    ensures r.Some? ==> |r.value| >= 18 && r.value[9..|r.value| - 9] == Text.NatToString(count)
  {
    if count > 0 then
      var line := "View all " + Text.NatToString(count) + " comments";
      assert line[..9] == "View all ";
      assert line[|line| - 9..] == " comments";
      assert line[9..|line| - 9] == Text.NatToString(count);
      Some(line)
    else None
  }

  /** `onCommentAdded`: the local comment counter goes up by one and nothing
      else on the card changes. */
  function OnCommentAdded(card: CardState): (r: CardState)
    ensures r.imageIndex == card.imageIndex
    ensures r.localPost.commentsCount == card.localPost.commentsCount + 1
    ensures r.localPost == card.localPost.(commentsCount := r.localPost.commentsCount)
  {
    card.(localPost := card.localPost.(commentsCount := card.localPost.commentsCount + 1))
  }

  /** `n` successful comment submissions raise the counter by exactly `n`. */
  function AfterComments(card: CardState, n: nat): CardState
    decreases n
  {
    if n == 0 then card else AfterComments(OnCommentAdded(card), n - 1)
  }

  lemma {:induction false} CommentCounterCountsSubmissions(card: CardState, n: nat)
    ensures AfterComments(card, n).localPost.commentsCount == card.localPost.commentsCount + n
    ensures AfterComments(card, n).localPost == card.localPost.(commentsCount := card.localPost.commentsCount + n)
    decreases n
  {
    if n > 0 {
      CommentCounterCountsSubmissions(OnCommentAdded(card), n - 1);
    }
  }

  /** The likes line as the card renders it: from `localPost`, the snapshot
      taken at mount, which the feed's later updates never reach. */
  function LikesShownAsWritten(card: CardState, post: Post): (r: Option<string>)
    // the line follows the copy taken at mount, whatever the current post says
    ensures r.Some? <==> card.localPost.likesCount > 0
    ensures r.Some? ==> Text.StartsWith(r.value, Text.NatToString(card.localPost.likesCount) + " like")
  {
    LikesLabel(card.localPost.likesCount)
  }

  /** Liking a post with no likes updates the feed's copy to one like, yet the
      card mounted on it still shows no likes line. */
  lemma LikeNotShownAsWritten(post: Post, store: Store)
    requires post.likesCount == 0 && SignedInUser(store).Some?
    ensures var updated := Home.HandleLike([post], store, post.id, false, true)[0];
      && updated.likesCount == 1
      && LikesShownAsWritten(Mount(post), updated) == None
  {
  }

  /** The likes line drawn from the post the feed currently passes in, so the
      optimistic count is what the user sees. */
  function LikesShown(card: CardState, post: Post): (r: Option<string>)
    ensures r.Some? <==> post.likesCount > 0
    ensures r.Some? ==> Text.StartsWith(r.value, Text.NatToString(post.likesCount) + " like")
  {
    LikesLabel(post.likesCount)
  }

  /** With the corrected card, a successful like of an unliked post shows its
      new count, one more than before. */
  lemma LikeShown(posts: seq<Post>, store: Store, i: nat)
    requires i < |posts| && SignedInUser(store).Some?
    requires posts[i].likesCount >= 0
    ensures var updated := Home.HandleLike(posts, store, posts[i].id, false, true)[i];
      && LikesShown(Mount(posts[i]), updated).Some?
      && Text.StartsWith(LikesShown(Mount(posts[i]), updated).value,
                         Text.NatToString(posts[i].likesCount + 1) + " like")
  {
  }
}

=== FILE: posts.dfy ===
/** The posts service: the paged feed with its client-side join of media
    rows and author profiles, the post-creation plan, like/unlike and
    comment writes. Responses are inputs (`None` when the request rejects);
    the requests the client issues are outputs. */
module Posts {
  import opened Wrappers
  import opened Types
  import opened Storage
  import Text

  const DefaultLimit := 20
  const DefaultOffset := 0
  const NotAuthenticated := "User not authenticated"
  /** What `post.id` on an empty insert response throws. */
  const PostMissing := "Cannot read properties of undefined (reading 'id')"
  /** Stands for the request error a rejected post insert propagates. */
  const InsertRejected := "Request failed"
  const StorageObjectsPath := "/api/storage/buckets/instagram-media/objects/"

  // ---------------------------------------------------------------------------
  // The page request

  /** The request for one page of the feed, newest first. */
  datatype PageRequest = PageRequest(order: string, limit: int, offset: int,
                                     rangeStart: int, rangeEnd: int, prefer: string)

  function PageRequestFor(limit: int, offset: int): (r: PageRequest)
    ensures r.limit == limit && r.offset == offset
    // the Range header asks for exactly `limit` items, the first at `offset`
    ensures r.rangeStart == offset && r.rangeEnd - r.rangeStart + 1 == limit
  {
    PageRequest("created_at.desc", limit, offset, offset, offset + limit - 1, "count=exact")
  }

  /** The `Range` header's text, `start-end`. */
  function RangeHeader(r: PageRequest): (h: string)
    // `<start>-<end>`, each bound rendered in decimal
    ensures Text.StartsWith(h, Text.IntToString(r.rangeStart) + "-")
    ensures Text.EndsWith(h, Text.IntToString(r.rangeEnd))
    ensures |h| == |Text.IntToString(r.rangeStart)| + 1 + |Text.IntToString(r.rangeEnd)|
  {
    Text.IntToString(r.rangeStart) + "-" + Text.IntToString(r.rangeEnd)
  }

  /** The feed's first page, with the default arguments, asks for items 0 to 19. */
  lemma DefaultRange()
    ensures RangeHeader(PageRequestFor(DefaultLimit, DefaultOffset)) == "0-19"
  {
  }

  // ---------------------------------------------------------------------------
  // Joining media rows onto posts

  /** The media rows belonging to post `id`, in response order: the reference
      definition the grouping is checked against. */
  function MediaOf(rows: seq<PostMedia>, id: string): (r: seq<PostMedia>)
    ensures forall m :: m in r <==> m in rows && m.postId == id
    ensures |r| <= |rows|
  {
    if |rows| == 0 then []
    else (if rows[0].postId == id then [rows[0]] else []) + MediaOf(rows[1..], id)
  }

  lemma {:induction false} MediaOfSnoc(rows: seq<PostMedia>, m: PostMedia, id: string)
    ensures MediaOf(rows + [m], id) == MediaOf(rows, id) + (if m.postId == id then [m] else [])
    decreases |rows|
  {
    if |rows| > 0 {
      assert (rows + [m])[1..] == rows[1..] + [m];
      MediaOfSnoc(rows[1..], m, id);
    } else {
      assert MediaOf([m], id) == (if m.postId == id then [m] else []) + MediaOf([], id);
    }
  }

  /** The `reduce` that files each media row, left to right, under its post id. */
  function GroupByPost(rows: seq<PostMedia>): (r: map<string, seq<PostMedia>>)
    // a key for every post id in the response, and each group non-empty and of that post only
    ensures forall i :: 0 <= i < |rows| ==> rows[i].postId in r
    ensures forall k :: k in r ==> r[k] != [] && forall m :: m in r[k] ==> m.postId == k && m in rows
  {
    if |rows| == 0 then map[]
    else
      var acc := GroupByPost(rows[..|rows| - 1]);
      var m := rows[|rows| - 1];
      acc[m.postId := (if m.postId in acc then acc[m.postId] else []) + [m]]
  }

  /** The grouping holds, under each post id, exactly that post's rows in
      response order, and holds no key without rows. */
  lemma {:induction false} GroupByPostIsMediaOf(rows: seq<PostMedia>)
    ensures forall id :: id in GroupByPost(rows) <==> MediaOf(rows, id) != []
    ensures forall id :: id in GroupByPost(rows) ==> GroupByPost(rows)[id] == MediaOf(rows, id)
  {
    if |rows| > 0 {
      var init := rows[..|rows| - 1];
      var m := rows[|rows| - 1];
      assert rows == init + [m];
      GroupByPostIsMediaOf(init);
      forall id ensures MediaOf(rows, id) == MediaOf(init, id) + (if m.postId == id then [m] else []) {
        MediaOfSnoc(init, m, id);
      }
    }
  }

  /** `mediaByPost[post.id] || []`. */
  function MediaFor(groups: map<string, seq<PostMedia>>, id: string): seq<PostMedia> {
    if id in groups then groups[id] else []
  }

  /** Sets every post's `media` to its rows of the media response. The rows
      keep response order: nothing sorts them by `order_index`. */
  function AttachMedia(posts: seq<Post>, rows: seq<PostMedia>): (r: seq<Post>)
    ensures |r| == |posts|
    ensures forall i :: 0 <= i < |posts| ==> r[i] == posts[i].(media := Some(MediaOf(rows, posts[i].id)))
  {
    GroupByPostIsMediaOf(rows);
    var groups := GroupByPost(rows);
    seq(|posts|, i requires 0 <= i < |posts| => posts[i].(media := Some(MediaFor(groups, posts[i].id))))
  }

  // ---------------------------------------------------------------------------
  // Joining author profiles onto posts

  /** The last profile in `rows` belonging to `userId`: the reference
      definition for the keyed map, in which later rows overwrite earlier ones. */
  function LastProfileFor(rows: seq<UserProfile>, userId: string): (r: Option<UserProfile>)
    ensures r.Some? ==> r.value in rows && r.value.userId == userId
    ensures r.None? <==> forall p :: p in rows ==> p.userId != userId
  {
    if |rows| == 0 then None
    else
      var later := LastProfileFor(rows[1..], userId);
      if later.Some? then later
      else if rows[0].userId == userId then Some(rows[0])
      else None
  }

  lemma {:induction false} LastProfileForSnoc(rows: seq<UserProfile>, p: UserProfile, userId: string)
    ensures LastProfileFor(rows + [p], userId) ==
      if p.userId == userId then Some(p) else LastProfileFor(rows, userId)
    decreases |rows|
  {
    if |rows| > 0 {
      assert (rows + [p])[1..] == rows[1..] + [p];
      LastProfileForSnoc(rows[1..], p, userId);
    } else {
      assert (rows + [p])[1..] == [];
    }
  }

  /** No later row belongs to the user: the chosen profile really is the last one. */
  lemma {:induction false} LastProfileIsLast(rows: seq<UserProfile>, userId: string)
    requires LastProfileFor(rows, userId).Some?
    ensures exists i :: && 0 <= i < |rows| && rows[i] == LastProfileFor(rows, userId).value
                        && forall j :: i < j < |rows| ==> rows[j].userId != userId
  {
    var later := LastProfileFor(rows[1..], userId);
    if later.Some? {
      LastProfileIsLast(rows[1..], userId);
      var i :| && 0 <= i < |rows[1..]| && rows[1..][i] == later.value
               && forall j :: i < j < |rows[1..]| ==> rows[1..][j].userId != userId;
      assert rows[i + 1] == later.value;
      forall j | i + 1 < j < |rows| ensures rows[j].userId != userId {
        assert rows[j] == rows[1..][j - 1];
      }
    } else {
      forall j | 0 < j < |rows| ensures rows[j].userId != userId {
        assert rows[j] in rows[1..];
      }
    }
  }

  /** The `reduce` that keys profiles by user id, left to right. */
  function ProfilesByUser(rows: seq<UserProfile>): (r: map<string, UserProfile>)
    // a key for every author in the response, holding a row of that author
    ensures forall i :: 0 <= i < |rows| ==> rows[i].userId in r
    ensures forall k :: k in r ==> r[k].userId == k
  {
    if |rows| == 0 then map[]
    else
      var p := rows[|rows| - 1];
      ProfilesByUser(rows[..|rows| - 1])[p.userId := p]
  }

  /** The keyed map holds, for each user, the last of that user's profiles,
      and nothing for a user without one. */
  lemma {:induction false} ProfilesByUserIsLast(rows: seq<UserProfile>)
    ensures forall u :: u in ProfilesByUser(rows) <==> LastProfileFor(rows, u).Some?
    ensures forall u :: u in ProfilesByUser(rows) ==> Some(ProfilesByUser(rows)[u]) == LastProfileFor(rows, u)
  {
    if |rows| > 0 {
      var init := rows[..|rows| - 1];
      var p := rows[|rows| - 1];
      assert rows == init + [p];
      ProfilesByUserIsLast(init);
      forall u ensures LastProfileFor(rows, u) == if p.userId == u then Some(p) else LastProfileFor(init, u) {
        LastProfileForSnoc(init, p, u);
      }
    }
  }

  /** Sets every post's `user_profile` to its author's profile, or to nothing
      (`undefined`) when the response holds none for the author. */
  function AttachProfiles(posts: seq<Post>, rows: seq<UserProfile>): (r: seq<Post>)
    ensures |r| == |posts|
    ensures forall i :: 0 <= i < |posts| ==>
      r[i] == posts[i].(userProfile := LastProfileFor(rows, posts[i].userId))
  {
    ProfilesByUserIsLast(rows);
    var byUser := ProfilesByUser(rows);
    seq(|posts|, i requires 0 <= i < |posts| =>
      posts[i].(userProfile := if posts[i].userId in byUser then Some(byUser[posts[i].userId]) else None))
  }

  // ---------------------------------------------------------------------------
  // The feed

  function PostIds(posts: seq<Post>): (r: seq<string>)
    ensures |r| == |posts| && forall i :: 0 <= i < |posts| ==> r[i] == posts[i].id
  {
    seq(|posts|, i requires 0 <= i < |posts| => posts[i].id)
  }

  function AuthorIds(posts: seq<Post>): (r: seq<string>)
    ensures |r| == |posts| && forall i :: 0 <= i < |posts| ==> r[i] == posts[i].userId
  {
    seq(|posts|, i requires 0 <= i < |posts| => posts[i].userId)
  }

  predicate NoDuplicates(xs: seq<string>) {
    forall i, j :: 0 <= i < j < |xs| ==> xs[i] != xs[j]
  }

  /** `[...new Set(xs)]`: each value once, at its first occurrence. */
  function Distinct(xs: seq<string>): (r: seq<string>)
    ensures NoDuplicates(r)
    ensures forall x :: x in r <==> x in xs
    ensures |r| <= |xs|
  {
    if |xs| == 0 then []
    else
      var d := Distinct(xs[..|xs| - 1]);
      var x := xs[|xs| - 1];
      assert xs == xs[..|xs| - 1] + [x];
      if x in d then d else d + [x]
  }

  /** Everything one `getPosts` call does: the page request, the media and
      profile queries it issues (by id list), and the posts it resolves with
      (`None` when it rejects). */
  datatype FeedLoad = FeedLoad(request: PageRequest,
                               mediaQuery: Option<seq<string>>,
                               profileQuery: Option<seq<string>>,
                               posts: Option<seq<Post>>)

  /** `getPosts(limit, offset)` given the three responses. */
  function GetPosts(limit: int, offset: int, page: Option<seq<Post>>,
                    mediaRows: Option<seq<PostMedia>>, profileRows: Option<seq<UserProfile>>): (r: FeedLoad)
    ensures r.request == PageRequestFor(limit, offset)
    // an empty page is returned as it came, with no further lookups
    ensures page.None? || page == Some([]) ==> r.mediaQuery.None? && r.profileQuery.None? && r.posts == page
    // otherwise media are asked for by every post id of the page ...
    ensures page.Some? && page.value != [] ==> r.mediaQuery == Some(PostIds(page.value))
    // ... and, once they arrive, profiles by each distinct author id exactly once
    ensures r.profileQuery.Some? <==> page.Some? && page.value != [] && mediaRows.Some?
    ensures r.profileQuery.Some? ==>
      && NoDuplicates(r.profileQuery.value)
      && forall u :: u in r.profileQuery.value <==> u in AuthorIds(page.value)
    ensures r.posts.Some? <==> page.Some? && (page.value == [] || (mediaRows.Some? && profileRows.Some?))
    // the join keeps the page's posts in order and changes only the joined fields
    ensures r.posts.Some? && page.value != [] ==>
      && |r.posts.value| == |page.value|
      && forall i :: 0 <= i < |page.value| ==>
           r.posts.value[i] == page.value[i].(media := Some(MediaOf(mediaRows.value, page.value[i].id)),
                                              userProfile := LastProfileFor(profileRows.value, page.value[i].userId))
  {
    var request := PageRequestFor(limit, offset);
    if page.None? || page == Some([]) then FeedLoad(request, None, None, page)
    else
      var posts := page.value;
      match mediaRows
      case None => FeedLoad(request, Some(PostIds(posts)), None, None)
      case Some(media) =>
        var withMedia := AttachMedia(posts, media);
        var authors := Distinct(AuthorIds(posts));
        match profileRows
        case None => FeedLoad(request, Some(PostIds(posts)), Some(authors), None)
        case Some(profiles) =>
          var joined := AttachProfiles(withMedia, profiles);
          assert forall i :: 0 <= i < |posts| ==> withMedia[i].userId == posts[i].userId;
          FeedLoad(request, Some(PostIds(posts)), Some(authors), Some(joined))
  }

  // ---------------------------------------------------------------------------
  // Creating a post

  /** A selected file: its name and MIME type. */
  datatype MediaFile = MediaFile(name: string, mimeType: string)

  /** The storage service's reply to one upload. */
  datatype UploadReply = UploadReply(url: Option<string>, path: Option<string>, key: Option<string>)

  /** One loop iteration's inputs: the clock reading (`Date.now()`) taken for
      the file name, and the storage reply. */
  datatype UploadStep = UploadStep(clock: nat, reply: UploadReply)

  datatype PostInsert = PostInsert(userId: string, caption: string, location: Option<string>)

  datatype MediaInsert = MediaInsert(postId: string, mediaUrl: string, mediaType: string, orderIndex: int)

  /** Everything one `createPost` call does: the post insert, the media
      inserts (one per upload, in upload order) and how it settles. */
  datatype CreatePlan = CreatePlan(postInsert: Option<PostInsert>,
                                   mediaInserts: seq<MediaInsert>,
                                   result: Result<Option<Post>, string>)

  /** The stored media type: `'video'` for a `video/...` MIME type, `'image'` for anything else. */
  function MediaTypeOf(mimeType: string): (r: string)
    ensures r == "video" || r == "image"
    ensures r == "video" <==> Text.StartsWith(mimeType, "video/")
  {
    if Text.StartsWith(mimeType, "video/") then "video" else "image"
  }

  /** `${post.id}_${i}_${Date.now()}.${ext}`, the extension being what follows
      the file name's last dot (all of the name when it has none). */
  function UploadFilename(postId: string, index: nat, clock: nat, fileName: string): (r: string)
    ensures Text.StartsWith(r, postId + "_" + Text.NatToString(index) + "_")
    ensures var ext := Text.AfterLast(fileName, '.');
      && Text.EndsWith(r, "." + ext) && '.' !in ext && Text.EndsWith(fileName, ext)
    // between the two, the clock reading's digits and nothing else
    ensures var prefix, clockDigits := postId + "_" + Text.NatToString(index) + "_", Text.NatToString(clock);
      && |r| == |prefix| + |clockDigits| + 1 + |Text.AfterLast(fileName, '.')|
      && r[|prefix|..|prefix| + |clockDigits|] == clockDigits
  {
    var ext := Text.AfterLast(fileName, '.');
    var prefix := postId + "_" + Text.NatToString(index) + "_";
    var stem := prefix + Text.NatToString(clock);
    NameLayout(postId + "_", Text.NatToString(index), Text.NatToString(clock), ext);
    Text.StartsWithAppend(prefix, Text.NatToString(clock) + "." + ext);
    Text.ConcatAssoc(stem, ".", ext);
    Text.EndsWithAppend(stem, "." + ext);
    assert (stem + "." + ext)[|prefix|..|stem|] == Text.NatToString(clock);
    stem + "." + ext
  }

  /** A generated file name identifies its upload within the post: equal
      names mean the same position and the same clock reading, whatever the
      two files are called, so two files of one post never share a name. */
  lemma UploadFilenameIdentifiesUpload(postId: string, i1: nat, c1: nat, f1: string,
                                       i2: nat, c2: nat, f2: string)
    ensures UploadFilename(postId, i1, c1, f1) == UploadFilename(postId, i2, c2, f2) ==>
      i1 == i2 && c1 == c2
  {
    var n1, n2 := UploadFilename(postId, i1, c1, f1), UploadFilename(postId, i2, c2, f2);
    if n1 == n2 {
      var ext1, ext2 := Text.AfterLast(f1, '.'), Text.AfterLast(f2, '.');
      var p := postId + "_";
      var a1, a2 := Text.NatToString(i1), Text.NatToString(i2);
      var rest1, rest2 := Text.NatToString(c1) + "." + ext1, Text.NatToString(c2) + "." + ext2;
      NameLayout(p, a1, Text.NatToString(c1), ext1);
      NameLayout(p, a2, Text.NatToString(c2), ext2);
      Text.AppendSlice(p, a1 + "_" + rest1);
      Text.AppendSlice(p, a2 + "_" + rest2);
      Text.DigitsBeforeSeparator(i1, i2, '_', rest1, rest2);
      Text.AppendSlice(p + a1 + "_", rest1);
      Text.AppendSlice(p + a2 + "_", rest2);
      Text.DigitsBeforeSeparator(c1, c2, '.', ext1, ext2);
    }
  }

  /** The generated name read left to right: the post part, the position's
      digits and `_`, then the clock's digits, `.` and the extension. */
  lemma NameLayout(p: string, a: string, d: string, ext: string)
    ensures p + a + "_" + d + "." + ext == p + (a + "_" + (d + "." + ext))
    ensures p + a + "_" + d + "." + ext == p + a + "_" + (d + "." + ext)
  {
    var rest := d + "." + ext;
    Text.ConcatAssoc(p + a + "_" + d, ".", ext);
    Text.ConcatAssoc(p + a + "_", d, "." + ext);
    Text.ConcatAssoc(d, ".", ext);
    Text.ConcatAssoc(p + a, "_", rest);
    Text.ConcatAssoc(p, a, "_" + rest);
    Text.ConcatAssoc(a, "_", rest);
  }

  /** The stored media URL: the reply's `url`, else its `path`, else the
      storage object path of its `key`, else of the generated file name. */
  function MediaUrl(reply: UploadReply, filename: string): (r: string)
    ensures r != ""
    ensures Truthy(reply.url) ==> r == reply.url.value
    ensures !Truthy(reply.url) && Truthy(reply.path) ==> r == reply.path.value
    ensures !Truthy(reply.url) && !Truthy(reply.path) ==>
      && Text.StartsWith(r, StorageObjectsPath)
      && r[|StorageObjectsPath|..] == if Truthy(reply.key) then reply.key.value else filename
  {
    if Truthy(reply.url) then reply.url.value
    else if Truthy(reply.path) then reply.path.value
    else StorageObjectsPath + (if Truthy(reply.key) then reply.key.value else filename)
  }

  /** `createPost(caption, location, files)`. `created` is the insert's
      response rows (`None` when it rejects) and `uploadAt(i)` the inputs of
      the i-th upload. */
  function CreatePost(store: Store, caption: string, location: Option<string>, files: seq<MediaFile>,
                      created: Option<seq<Post>>, uploadAt: nat -> UploadStep): (r: CreatePlan)
    // without a signed-in user it throws before any request
    ensures SignedInUser(store).None? ==> r == CreatePlan(None, [], Failure(NotAuthenticated))
    ensures SignedInUser(store).Some? ==>
      r.postInsert == Some(PostInsert(store[UserKey], caption, location))
    // one media record per file, in file order, pointing at the new post
    // a rejected post insert rejects the call before any upload
    ensures SignedInUser(store).Some? && created.None? ==>
      r.mediaInserts == [] && r.result == Failure(InsertRejected)
    ensures SignedInUser(store).Some? && created.Some? && |created.value| > 0 ==>
      && r.result == Success(Some(created.value[0]))
      && |r.mediaInserts| == |files|
      && forall i :: 0 <= i < |files| ==>
           && r.mediaInserts[i].orderIndex == i
           && r.mediaInserts[i].postId == created.value[0].id
           && r.mediaInserts[i].mediaType == MediaTypeOf(files[i].mimeType)
           && r.mediaInserts[i].mediaUrl ==
                MediaUrl(uploadAt(i).reply, UploadFilename(created.value[0].id, i, uploadAt(i).clock, files[i].name))
    // an empty insert response resolves to nothing with no files, and throws on the first file otherwise
    ensures SignedInUser(store).Some? && created == Some([]) ==>
      && r.mediaInserts == []
      && r.result == if |files| == 0 then Success(None) else Failure(PostMissing)
  {
    match SignedInUser(store)
    case None => CreatePlan(None, [], Failure(NotAuthenticated))
    case Some(userId) =>
      var insert := Some(PostInsert(userId, caption, location));
      if created.None? then CreatePlan(insert, [], Failure(InsertRejected))
      else if |created.value| == 0 then
        CreatePlan(insert, [], if |files| == 0 then Success(None) else Failure(PostMissing))
      else
        var post := created.value[0];
        var media := seq(|files|, i requires 0 <= i < |files| =>
          MediaInsert(post.id,
                      MediaUrl(uploadAt(i).reply, UploadFilename(post.id, i, uploadAt(i).clock, files[i].name)),
                      MediaTypeOf(files[i].mimeType),
                      i));
        CreatePlan(insert, media, Success(Some(post)))
  }

  // ---------------------------------------------------------------------------
  // Likes and comments

  /** A like write: inserting the edge, or deleting the rows matching it. */
  datatype LikeMutation = AddLike(edge: LikeRow) | RemoveLike(edge: LikeRow)

  /** `likePost` (when `liked` is false) or `unlikePost` (when true). */
  function LikeMutationFor(store: Store, postId: string, liked: bool): (r: Result<LikeMutation, string>)
    ensures r.Failure? <==> SignedInUser(store).None?
    ensures r.Failure? ==> r.error == NotAuthenticated
    ensures r.Success? ==> r.value.edge == LikeRow(store[UserKey], postId) && (r.value.RemoveLike? <==> liked)
  {
    match SignedInUser(store)
    case None => Failure(NotAuthenticated)
    case Some(userId) =>
      var edge := LikeRow(userId, postId);
      Success(if liked then RemoveLike(edge) else AddLike(edge))
  }

  /** The `likes` table after a mutation: an insert appends the row, a delete
      (`user_id=eq.U&post_id=eq.P`) drops every matching row. */
  function ApplyLike(table: seq<LikeRow>, m: LikeMutation): (r: seq<LikeRow>)
    ensures m.AddLike? ==> m.edge in r && multiset(r) == multiset(table) + multiset{m.edge}
    ensures m.RemoveLike? ==> m.edge !in r && forall e :: e in r <==> e in table && e != m.edge
    // every other row keeps all its copies
    ensures m.RemoveLike? ==> multiset(r) == multiset(table)[m.edge := 0]
  {
    match m
    case AddLike(edge) => table + [edge]
    case RemoveLike(edge) => Without(table, edge)
  }

  function Without(table: seq<LikeRow>, edge: LikeRow): (r: seq<LikeRow>)
    ensures forall e :: e in r <==> e in table && e != edge
    ensures multiset(r) == multiset(table)[edge := 0]
    ensures edge !in table ==> r == table
  {
    if |table| == 0 then []
    else
      assert table == [table[0]] + table[1..];
      (if table[0] == edge then [] else [table[0]]) + Without(table[1..], edge)
  }

  /** Liking a post the user had not liked and then unliking it leaves the
      `likes` table as it was: no residual edge. */
  lemma {:induction false} LikeThenUnlikeRestoresTable(table: seq<LikeRow>, edge: LikeRow)
    requires edge !in table
    ensures ApplyLike(ApplyLike(table, AddLike(edge)), RemoveLike(edge)) == table
    decreases |table|
  {
    if |table| == 0 {
      assert Without([edge], edge) == [] + Without([], edge);
    } else {
      assert (table + [edge])[1..] == table[1..] + [edge];
      LikeThenUnlikeRestoresTable(table[1..], edge);
    }
  }

  /** The post ids of the user's like rows (`getUserLikes`). */
  function LikedPostIds(rows: seq<LikeRow>): (r: set<string>)
    ensures forall id :: id in r <==> exists l :: l in rows && l.postId == id
  {
    set l | l in rows :: l.postId
  }

  datatype CommentInsert = CommentInsert(postId: string, userId: string, content: string)

  /** `addComment(postId, content)`: the insert it issues, or the error it throws. */
  function AddComment(store: Store, postId: string, content: string): (r: Result<CommentInsert, string>)
    ensures r.Failure? <==> SignedInUser(store).None?
    ensures r.Failure? ==> r.error == NotAuthenticated
    ensures r.Success? ==> r.value == CommentInsert(postId, store[UserKey], content)
  {
    match SignedInUser(store)
    case None => Failure(NotAuthenticated)
    case Some(userId) => Success(CommentInsert(postId, userId, content))
  }
}

=== FILE: profile.dfy ===
/** A user's profile page: the header profile, the grid of posts with their
    media, the follow state and toggle, and the tabs. */
module Profile {
  import opened Wrappers
  import opened Types
  import opened Storage
  import Auth
  import Posts

  datatype Tab = PostsTab | ReelsTab | SavedTab

  datatype ProfilePage = ProfilePage(profile: Option<UserProfile>, posts: seq<Post>, tab: Tab,
                                     loading: bool, isFollowing: bool)

  const Initial := ProfilePage(None, [], PostsTab, true, false)

  /** `userId === currentUserId`: the route's user is the stored user. `route`
      is the `:userId` route parameter and `stored` the raw stored id. */
  function IsOwnProfile(route: Option<string>, stored: Option<string>): (r: bool)
    ensures r ==> route.Some? && stored.Some?
    ensures route.Some? && stored.Some? ==> (r <==> route.value == stored.value)
  {
    route.Some? && stored.Some? && route.value == stored.value
  }

  /** `loadProfile`: the first profile row for the user, or null; a failed
      request leaves the header as it was. */
  function LoadProfile(p: ProfilePage, rows: Option<seq<UserProfile>>): (r: ProfilePage)
    ensures r == p.(profile := r.profile)
    ensures rows.None? ==> r.profile == p.profile
    ensures rows.Some? ==> (r.profile.None? <==> rows.value == [])
    ensures rows.Some? && r.profile.Some? ==> r.profile.value == rows.value[0]
  {
    match rows
    case None => p
    case Some(rs) => p.(profile := Auth.GetUserProfile(rs))
  }

  /** One `loadPosts`: the page afterwards and the media query it issued. */
  datatype GridLoad = GridLoad(page: ProfilePage, mediaQuery: Option<seq<string>>)

  /** `loadPosts`. `fetched` is the user's posts and `mediaRows` the media
      response (`None` when a request rejects). */
  function LoadPosts(p: ProfilePage, fetched: Option<seq<Post>>, mediaRows: Option<seq<PostMedia>>): (r: GridLoad)
    ensures r.page.loading == false
    ensures r.page == p.(posts := r.page.posts, loading := false)
    // no posts: no media lookup
    ensures r.mediaQuery.Some? <==> fetched.Some? && fetched.value != []
    ensures r.mediaQuery.Some? ==> r.mediaQuery.value == Posts.PostIds(fetched.value)
    ensures fetched == Some([]) ==> r.page.posts == []
    // each post gets exactly its own media rows, in response order
    ensures fetched.Some? && fetched.value != [] && mediaRows.Some? ==>
      && |r.page.posts| == |fetched.value|
      && forall i :: 0 <= i < |fetched.value| ==>
           r.page.posts[i] == fetched.value[i].(media := Some(Posts.MediaOf(mediaRows.value, fetched.value[i].id)))
    // any failure keeps the grid as it was
    ensures fetched.None? || (fetched.value != [] && mediaRows.None?) ==> r.page.posts == p.posts
  {
    match fetched
    case None => GridLoad(p.(loading := false), None)
    case Some(posts) =>
      if posts == [] then GridLoad(p.(posts := [], loading := false), None)
      else
        var query := Some(Posts.PostIds(posts));
        match mediaRows
        case None => GridLoad(p.(loading := false), query)
        case Some(media) => GridLoad(p.(posts := Posts.AttachMedia(posts, media), loading := false), query)
  }

  /** One `checkFollowStatus`: the page afterwards and whether it queried. */
  datatype FollowCheck = FollowCheck(page: ProfilePage, queried: bool)

  /** `checkFollowStatus`. `rows` is the follow edges from the viewer to the
      user (`None` when the request rejects). */
  function CheckFollowStatus(p: ProfilePage, stored: Option<string>, route: Option<string>,
                             rows: Option<seq<Follow>>): (r: FollowCheck)
    ensures r.page == p.(isFollowing := r.page.isFollowing)
    // nobody signed in, or one's own profile: no query
    ensures r.queried <==> Truthy(stored) && stored != route
    ensures r.queried && rows.Some? ==> (r.page.isFollowing <==> rows.value != [])
    ensures !r.queried || rows.None? ==> r.page == p
  {
    if !Truthy(stored) || stored == route then FollowCheck(p, false)
    else match rows
      case None => FollowCheck(p, true)
      case Some(edges) => FollowCheck(p.(isFollowing := |edges| > 0), true)
  }

  /** The follow write: insert an active edge, or delete the matching ones. */
  datatype FollowMutation =
    | FollowUser(followerId: string, followingId: Option<string>, status: string)
    | UnfollowUser(followerId: string, followingId: Option<string>)

  datatype FollowStep = FollowStep(page: ProfilePage, mutation: Option<FollowMutation>)

  /** `handleFollow`. `ok` says whether the write succeeds. */
  function HandleFollow(p: ProfilePage, stored: Option<string>, route: Option<string>, ok: bool): (r: FollowStep)
    // nobody signed in: nothing happens
    ensures !Truthy(stored) ==> r == FollowStep(p, None)
    ensures Truthy(stored) ==>
      r.mutation == Some(if p.isFollowing then UnfollowUser(stored.value, route)
                         else FollowUser(stored.value, route, "active"))
    ensures !ok ==> r.page == p
    // success flips the flag; a loaded header's follower count moves with it
    ensures Truthy(stored) && ok ==>
      && r.page == p.(isFollowing := !p.isFollowing, profile := r.page.profile)
      && (p.profile.None? ==> r.page.profile.None?)
      && (p.profile.Some? ==>
            && r.page.profile.Some?
            && r.page.profile.value == p.profile.value.(followersCount := r.page.profile.value.followersCount)
            && r.page.profile.value.followersCount - p.profile.value.followersCount == (if p.isFollowing then -1 else 1))
  {
    if !Truthy(stored) then FollowStep(p, None)
    else if p.isFollowing then
      var m := Some(UnfollowUser(stored.value, route));
      if !ok then FollowStep(p, m)
      else
        var profile := if p.profile.Some? then Some(p.profile.value.(followersCount := p.profile.value.followersCount - 1)) else None;
        FollowStep(p.(isFollowing := false, profile := profile), m)
    else
      var m := Some(FollowUser(stored.value, route, "active"));
      if !ok then FollowStep(p, m)
      else
        var profile := if p.profile.Some? then Some(p.profile.value.(followersCount := p.profile.value.followersCount + 1)) else None;
        FollowStep(p.(isFollowing := true, profile := profile), m)
  }

  /** Following and then unfollowing puts the page back exactly as it was. */
  lemma FollowThenUnfollowRestores(p: ProfilePage, stored: Option<string>, route: Option<string>)
    requires Truthy(stored) && !p.isFollowing
    ensures HandleFollow(HandleFollow(p, stored, route, true).page, stored, route, true).page == p
  {
  }

  /** The tabs the page offers: SAVED only on one's own profile. */
  function TabsShown(own: bool): (r: seq<Tab>)
    ensures PostsTab in r && ReelsTab in r
    ensures SavedTab in r <==> own
  {
    [PostsTab, ReelsTab] + (if own then [SavedTab] else [])
  }

  /** A freshly opened profile shows its posts, whoever's it is. */
  lemma InitialPanelIsPosts(own: bool)
    ensures Initial.tab in TabsShown(own) && PanelShown(Initial.tab, own) == Some(PostsTab)
  {
  }

  /** The panel under the tabs; the saved panel needs one's own profile even
      when the saved tab was left selected from an earlier visit. */
  function PanelShown(tab: Tab, own: bool): (r: Option<Tab>)
    ensures r == Some(SavedTab) ==> own && SavedTab in TabsShown(own)
    ensures r.Some? ==> r.value == tab
    ensures tab != SavedTab ==> r == Some(tab)
    // the only blank panel is the saved tab on someone else's profile
    ensures r.None? <==> tab == SavedTab && !own
  {
    if tab == SavedTab && !own then None else Some(tab)
  }
}

=== FILE: storage.dfy ===
/** The browser's `localStorage`, reduced to the two keys the client uses:
    the access token and the signed-in user's id. It is passed in and
    returned explicitly instead of being ambient. */
module Storage {
  import opened Wrappers

  type Store = map<string, string>

  const TokenKey := "access_token"
  const UserKey := "user_id"

  /** `localStorage.getItem(key)`: `None` plays the part of `null`. */
  function GetItem(s: Store, key: string): Option<string> {
    if key in s then Some(s[key]) else None
  }

  /** The signed-in user's id as the source's `if (!userId)` guards see it:
      present only when stored and non-empty. */
  function SignedInUser(s: Store): (r: Option<string>)
    ensures r.Some? <==> UserKey in s && s[UserKey] != ""
    ensures r.Some? ==> r.value == s[UserKey]
  {
    if UserKey in s && s[UserKey] != "" then Some(s[UserKey]) else None
  }

  /** Two stores agree on every key other than the two credential keys. */
  ghost predicate SameOtherKeys(s: Store, t: Store) {
    forall k :: k != TokenKey && k != UserKey ==> GetItem(s, k) == GetItem(t, k)
  }

  /** `setItem('access_token', token); setItem('user_id', userId)`. */
  function SaveCredentials(s: Store, token: string, userId: string): (r: Store)
    ensures GetItem(r, TokenKey) == Some(token)
    ensures GetItem(r, UserKey) == Some(userId)
    ensures SameOtherKeys(s, r)
  {
    s[TokenKey := token][UserKey := userId]
  }

  /** `removeItem('access_token'); removeItem('user_id')`. */
  function ClearCredentials(s: Store): (r: Store)
    ensures GetItem(r, TokenKey) == None && GetItem(r, UserKey) == None
    ensures SameOtherKeys(s, r)
    ensures SignedInUser(r) == None
  {
    s - {TokenKey, UserKey}
  }

  /** Signing out after signing in leaves the store as signing out alone would:
      no trace of the saved credentials remains. */
  lemma ClearUndoesSave(s: Store, token: string, userId: string)
    ensures ClearCredentials(SaveCredentials(s, token, userId)) == ClearCredentials(s)
  {
  }
}

=== FILE: text.dfy ===
/** The handful of JavaScript string operations the client relies on:
    decimal rendering of integers in template literals, `startsWith`,
    `split(c)[0]`, `split(c).pop()`, `trim()` and ASCII `toUpperCase()`. */
module Text {

  predicate IsDigit(c: char) {
    '0' <= c <= '9'
  }

  predicate AllDigits(s: string) {
    forall i :: 0 <= i < |s| ==> IsDigit(s[i])
  }

  function DigitChar(d: nat): (c: char)
    requires d < 10
    ensures IsDigit(c)
    ensures c as int - '0' as int == d
  {
    "0123456789"[d]
  }

  /** `${n}` for a non-negative integer: shortest decimal form, no leading zero. */
  function NatToString(n: nat): (s: string)
    ensures |s| > 0 && AllDigits(s)
    ensures s[0] == '0' ==> s == "0"
    decreases n
  {
    if n < 10 then [DigitChar(n)] else NatToString(n / 10) + [DigitChar(n % 10)]
  }

  /** The value a string of decimal digits denotes. */
  function ParseDigits(s: string): nat
    requires AllDigits(s)
  {
    if |s| == 0 then 0
    else 10 * ParseDigits(s[..|s| - 1]) + (s[|s| - 1] as int - '0' as int)
  }

  /** Rendering a number and reading it back gives the number. */
  lemma {:induction false} ParseNatToString(n: nat)
    ensures ParseDigits(NatToString(n)) == n
    decreases n
  {
    if n >= 10 {
      ParseNatToString(n / 10);
      var s := NatToString(n);
      assert s[..|s| - 1] == NatToString(n / 10);
    }
  }

  /** Distinct numbers render differently, so rendered numbers identify them. */
  lemma NatToStringInjective(m: nat, n: nat)
    ensures NatToString(m) == NatToString(n) ==> m == n
  {
    ParseNatToString(m);
    ParseNatToString(n);
  }

  /** A rendered number followed by a non-digit separator reads back
      unambiguously: two such strings that agree hold the same number. */
  lemma DigitsBeforeSeparator(m: nat, n: nat, sep: char, x: string, y: string)
    requires !IsDigit(sep)
    requires NatToString(m) + [sep] + x == NatToString(n) + [sep] + y
    ensures m == n
  {
    var a, b := NatToString(m), NatToString(n);
    var s := a + [sep] + x;
    assert s[|a|] == sep && s[|b|] == sep;
    assert forall i :: 0 <= i < |a| ==> s[i] == a[i];
    assert forall i :: 0 <= i < |b| ==> s[i] == b[i];
    assert |a| == |b|;
    assert a == s[..|a|] && b == s[..|b|];
    NatToStringInjective(m, n);
  }

  /** What follows a prefix in a concatenation is the rest. */
  lemma AppendSlice(p: string, rest: string)
    ensures (p + rest)[|p|..] == rest
  {
  }

  lemma StartsWithAppend(a: string, b: string)
    ensures StartsWith(a + b, a)
  {
    assert (a + b)[..|a|] == a;
  }

  lemma EndsWithAppend(a: string, b: string)
    ensures EndsWith(a + b, b)
  {
    assert (a + b)[|a|..] == b;
  }

  lemma ConcatAssoc(a: string, b: string, c: string)
    ensures a + b + c == a + (b + c)
  {
  }

  /** `${i}` for any integer: a minus sign in front of the magnitude when negative. */
  function IntToString(i: int): (s: string)
    // a sign exactly for a negative number ...
    ensures |s| > 0 && (s[0] == '-' <==> i < 0)
    // ... then decimal digits that read back as the magnitude
    ensures var digits := if i < 0 then s[1..] else s;
      && |digits| > 0 && AllDigits(digits)
      && ParseDigits(digits) == (if i < 0 then -i else i)
  {
    var magnitude := if i < 0 then -i else i;
    ParseNatToString(magnitude);
    if i < 0 then
      var s := "-" + NatToString(magnitude);
      assert s[1..] == NatToString(magnitude);
      s
    else NatToString(magnitude)
  }

  predicate StartsWith(s: string, prefix: string) {
    |prefix| <= |s| && s[..|prefix|] == prefix
  }

  predicate EndsWith(s: string, suffix: string) {
    |suffix| <= |s| && s[|s| - |suffix|..] == suffix
  }

  /** `s.split(c)[0]`: the text before the first `c`, or all of `s` when there is none. */
  function BeforeFirst(s: string, c: char): (r: string)
    ensures StartsWith(s, r)
    ensures c !in r
    ensures |r| < |s| ==> s[|r|] == c
  {
    if |s| == 0 then []
    else if s[0] == c then []
    else [s[0]] + BeforeFirst(s[1..], c)
  }

  /** `s.split(c).pop()`: the text after the last `c`, or all of `s` when there is none. */
  function AfterLast(s: string, c: char): (r: string)
    ensures EndsWith(s, r)
    ensures c !in r
    ensures |r| < |s| ==> s[|s| - |r| - 1] == c
  {
    if |s| == 0 then []
    else if s[|s| - 1] == c then []
    else AfterLast(s[..|s| - 1], c) + [s[|s| - 1]]
  }

  /** The characters `String.prototype.trim` removes: ECMAScript WhiteSpace and LineTerminator. */
  predicate IsWhitespace(c: char) {
    || c == ' ' || c == '\t' || c == '\n' || c == '\r'
    || c == '\U{0B}' || c == '\U{0C}' || c == '\U{A0}' || c == '\U{1680}'
    || ('\U{2000}' <= c <= '\U{200A}')
    || c == '\U{2028}' || c == '\U{2029}' || c == '\U{202F}' || c == '\U{205F}'
    || c == '\U{3000}' || c == '\U{FEFF}'
  }

  predicate IsBlank(s: string) {
    forall i :: 0 <= i < |s| ==> IsWhitespace(s[i])
  }

  function TrimStart(s: string): (r: string)
    ensures EndsWith(s, r)
    ensures IsBlank(s[..|s| - |r|])
    ensures r == [] || !IsWhitespace(r[0])
  {
    if |s| > 0 && IsWhitespace(s[0]) then TrimStart(s[1..]) else s
  }

  function TrimEnd(s: string): (r: string)
    ensures StartsWith(s, r)
    ensures IsBlank(s[|r|..])
    ensures r == [] || !IsWhitespace(r[|r| - 1])
  {
    if |s| > 0 && IsWhitespace(s[|s| - 1]) then TrimEnd(s[..|s| - 1]) else s
  }

  /** `s.trim()`: the stretch of `s` left once the whitespace at both ends
      is gone, which starts and ends with a non-whitespace character. */
  function Trim(s: string): (r: string)
    ensures r == [] || (!IsWhitespace(r[0]) && !IsWhitespace(r[|r| - 1]))
    ensures exists i, j :: 0 <= i <= j <= |s| && r == s[i..j] && IsBlank(s[..i]) && IsBlank(s[j..])
  {
    var t := TrimStart(s);
    var r := TrimEnd(t);
    var i := |s| - |t|;
    assert t == s[i..];
    assert r == s[i..i + |r|];
    assert s[i + |r|..] == t[|r|..];
    r
  }

  /** `!s.trim()` holds exactly when every character of `s` is whitespace. */
  lemma TrimEmptyIffBlank(s: string)
    ensures Trim(s) == [] <==> IsBlank(s)
  {
  }

  /** `toUpperCase()` on one character, for the ASCII letters. */
  function ToUpperAscii(c: char): (u: char)
    ensures 'a' <= c <= 'z' ==> 'A' <= u <= 'Z' && u as int - c as int == 'A' as int - 'a' as int
    ensures !('a' <= c <= 'z') ==> u == c
  {
    if 'a' <= c <= 'z' then (c as int - 'a' as int + 'A' as int) as char else c
  }
}

=== FILE: types.dfy ===
/** The backend records the client reads and writes, mirroring the
    TypeScript interfaces of src/types/index.ts. Optional properties
    (`field?: T`) are `Option`s; the three client-side join fields of a post
    (`media`, `user_profile`, `liked_by_user`) and the two of a comment are
    `None` until the client attaches them. Counters are unbounded integers,
    as JavaScript numbers stay exact far beyond any realistic count. */
module Types {
  import opened Wrappers

  datatype User = User(
    id: string,
    email: string,
    name: Option<string>,
    emailVerified: Option<bool>,
    createdAt: string,
    updatedAt: string)

  datatype UserProfile = UserProfile(
    id: string,
    userId: string,
    username: string,
    displayName: Option<string>,
    bio: Option<string>,
    pictureUrl: Option<string>,
    isPrivate: bool,
    followersCount: int,
    followingCount: int,
    postsCount: int,
    createdAt: string,
    updatedAt: string)

  datatype PostMedia = PostMedia(
    id: string,
    postId: string,
    mediaUrl: string,
    mediaType: string,
    orderIndex: int,
    createdAt: string,
    updatedAt: string)

  datatype Post = Post(
    id: string,
    userId: string,
    caption: Option<string>,
    location: Option<string>,
    likesCount: int,
    commentsCount: int,
    isArchived: bool,
    createdAt: string,
    updatedAt: string,
    media: Option<seq<PostMedia>>,
    userProfile: Option<UserProfile>,
    likedByUser: Option<bool>)

  datatype Comment = Comment(
    id: string,
    postId: string,
    userId: string,
    content: string,
    likesCount: int,
    createdAt: string,
    updatedAt: string,
    userProfile: Option<UserProfile>,
    likedByUser: Option<bool>)

  datatype Follow = Follow(
    id: string,
    followerId: string,
    followingId: string,
    status: string,
    createdAt: string,
    updatedAt: string)

  /** A row of the `likes` table: the edge (user, post). */
  datatype LikeRow = LikeRow(userId: string, postId: string)

  /** JavaScript truthiness of an optional string: absent and `""` are both falsy. */
  predicate Truthy(s: Option<string>) {
    s.Some? && s.value != ""
  }
}

=== FILE: wrappers.dfy ===
/** Failure-compatible wrappers used across the model.

    `Option` stands for a JavaScript value that may be `null`/`undefined`;
    `Result` stands for a promise that either resolves with a value or
    rejects (the source throws) with a message.
 */
module Wrappers {

  datatype Option<+T> = None | Some(value: T)

  datatype Result<+T, +E> = Success(value: T) | Failure(error: E) {

    /** Forgets the error, keeping only whether a value came back. */
    function ToOption(): Option<T> {
      match this
      case Success(v) => Some(v)
      case Failure(_) => None
    }
  }
}
